=== FILE: README.md ===
# Inventory combinations: a Dafny model

This project models the core logic of a small inventory application. The
application has a catalog of products, each with an id, a name, a stock
count, a unit price, an optional importer and a per-unit stock value. The
model covers four pieces of it:

- **The combination enumerator** (`getCombinations` and its inner `combine`).
  It searches the catalog by backtracking for every choice of `size` products,
  taken at increasing catalog positions, whose unit prices add up to at most
  the price ceiling (`limit`). A branch is cut as soon as the running total
  would exceed the ceiling.
- **The commit of a chosen combination** (`handleSelectCombination`). Each
  product of the combination takes one unit of stock from the first catalog
  entry with its id. An entry whose stock is no longer positive is dropped;
  the source means to record it in a removal history, but keeps only the last
  one of each commit (see "## Findings"). The combination is appended to the
  selection history.
- **The product store.** Its transitions are `addProduct`, `removeProduct`,
  `updateProduct`, `setProducts`, `setLimit` and `setItemCount`, plus the
  initial state with a ceiling of 13. They act on `(products, limit,
  itemCount)`, and `itemCount` is maintained by hand.
- **The product table's column sort** (`handleSort`). Clicking a header picks
  the direction: the same column flips it, and a new column starts
  ascending. It then sorts a copy of the catalog with a comparator on that
  column and stores the copy.

Modules:

- `Products` (`products.dfy`): the product record, price sums, and filtering
  by id.
- `ProductStore` (`store.dfy`): the store state, its transitions, and the
  `itemCount` bookkeeping invariant.
- `Combinations` (`combinations.dfy`):
  - the enumerator, written over catalog positions: `Search` is `combine` and
    `Scan` is its `for` loop;
  - soundness and no duplicates;
  - the row arithmetic (total and difference).
- `CombinationLaws` (`combination_laws.dfy`):
  - an independent brute-force reference: every increasing choice of
    positions in lexicographic order, filtered by the ceiling;
  - completeness against that reference when no price is negative;
  - lexicographic order, monotonicity in the ceiling, and the boundary sizes.
- `Selection` (`selection.dfy`):
  - the commit, step by step, as the source does it (`findIndex`, then
    decrement, then splice);
  - a recursive one-step reference, and a single-scan reference for the
    whole commit;
  - the two histories.
- `ProductSort` (`sorting.dfy`): column keys, the comparator and its laws, a
  stable sort, and the header toggle.

Prices are exact `real` numbers. Strings are sequences of UTF-16 code units, as in JavaScript. The enumerator works on position sequences.
`GetCombinations` maps them back to products.

## Model

| member | source | states |
|---|---|---|
| Combinations.Search | src/components/tables/CombinationsTable.tsx:40-54 | `combine`: a partial combination already longer than `size` yields nothing, since the length test at line 41 can never succeed again |
| Combinations.Scan | src/components/tables/CombinationsTable.tsx:47-53 | the `for` loop of `combine`: once the partial combination has reached `size`, every recursive call it makes is over-long, so it yields nothing |
| Combinations.NextStates | src/components/tables/CombinationsTable.tsx:48-51 | the recursive call keeps the running total equal to the price sum of the positions chosen, and keeps positions increasing and below the next start |
| Combinations.CostExtend | src/components/tables/CombinationsTable.tsx:48 | adding a position adds exactly its unit price to the combination's total |
| Combinations.SearchFits | src/components/tables/CombinationsTable.tsx:40-54 | every emitted combination has exactly `size` increasing positions inside the catalog and a total at most `maxPrice`, whatever the sign of the prices |
| Combinations.ScanFits | src/components/tables/CombinationsTable.tsx:47-53 | every combination found by the loop from position `i` is sound in the same sense |
| Combinations.SearchExtends | src/components/tables/CombinationsTable.tsx:40-54 | every emitted combination extends the partial combination with positions from `start` on |
| Combinations.ScanExtends | src/components/tables/CombinationsTable.tsx:47-53 | every combination found by the loop from position `i` extends the partial combination with a position at least `i` next, and is strictly longer than it |
| Combinations.TakenGroup | src/components/tables/CombinationsTable.tsx:48-51 | the results found with position `i` taken all hold `i` right after the partial combination |
| Combinations.DisjointGroups | src/components/tables/CombinationsTable.tsx:47-53 | results with `i` taken and results with a later position there cannot coincide, so the loop's concatenation stays duplicate-free |
| Combinations.SearchListsOnce | src/components/tables/CombinationsTable.tsx:40-54 | the search never emits the same position combination twice |
| Combinations.ScanListsOnce | src/components/tables/CombinationsTable.tsx:47-53 | the taken and skipped groups of the loop are disjoint, so the loop's results are duplicate-free |
| Combinations.IndexCombinations | src/components/tables/CombinationsTable.tsx:38-57 | every listed position combination has length `size`, is increasing, lies inside the catalog, and costs at most `maxPrice` |
| Combinations.GetCombinations | src/components/tables/CombinationsTable.tsx:38-57 | every returned product combination has exactly `size` products, a price sum at most `maxPrice`, and consists of the products at increasing catalog positions |
| Combinations.ListedOnce | src/components/tables/CombinationsTable.tsx:47-51 | no combination is listed twice |
| Combinations.ListedDifferenceNonNegative | src/components/tables/CombinationsTable.tsx:168-170 | a listed combination shows a non-negative difference whenever the ceiling the row is shown with is at least the one the list was computed with |
| Combinations.Difference | src/components/tables/CombinationsTable.tsx:170 | the row's difference is non-negative exactly when the combination's total is within the ceiling |
| Combinations.LoweredCeilingShowsNegativeDifference | src/components/tables/CombinationsTable.tsx:59-73 | with one product priced 5 listed under a ceiling of 10, showing the row with a ceiling of 3 gives a negative difference |
| CombinationLaws.ChooseShape | src/components/tables/CombinationsTable.tsx:47-51 | the brute-force reference lists only increasing choices of `k` positions from `[start, n)` |
| CombinationLaws.ChooseComplete | src/components/tables/CombinationsTable.tsx:47-51 | every increasing choice of `k` positions from `[start, n)` is in the reference |
| CombinationLaws.ChooseLexSorted | src/components/tables/CombinationsTable.tsx:47-51 | the reference lists its choices in strictly increasing lexicographic order |
| CombinationLaws.Affordable | src/components/tables/CombinationsTable.tsx:42 | a candidate is kept exactly when it lies inside the catalog and costs at most the ceiling |
| CombinationLaws.PrunedBranchEmpty | src/components/tables/CombinationsTable.tsx:49 | with no negative price, every completion of a prefix that already exceeds the ceiling also exceeds it, so the pruned branch loses nothing |
| CombinationLaws.SearchIsReference | src/components/tables/CombinationsTable.tsx:40-54 | with no negative price, `combine` from any reachable state returns exactly the reference's completions within the ceiling, in reference order |
| CombinationLaws.ScanIsReference | src/components/tables/CombinationsTable.tsx:47-53 | the same for the loop from position `i`: its result is exactly the reference's within-ceiling completions of the partial combination by positions from `i` on |
| CombinationLaws.TakenIsReference | src/components/tables/CombinationsTable.tsx:48-51 | when position `i` fits under the ceiling, the taken branch followed by the skipped branch is exactly the reference's completions from `i` |
| CombinationLaws.PrunedIsReference | src/components/tables/CombinationsTable.tsx:49 | when position `i` would exceed the ceiling, skipping it loses no completion of the reference |
| CombinationLaws.ReferenceSplits | src/components/tables/CombinationsTable.tsx:47-51 | the reference's completions from `i` are those that take `i` followed by those that skip it |
| CombinationLaws.CompleteForNonNegativePrices | src/components/tables/CombinationsTable.tsx:38-57 | with no negative price, the enumerator's result equals the brute-force list of all increasing `size`-choices within the ceiling |
| CombinationLaws.ListedIffFits | src/components/tables/CombinationsTable.tsx:38-57 | with no negative price, a position combination is listed if and only if it has `size` increasing positions and costs at most the ceiling |
| CombinationLaws.NegativePriceDefeatsPruning | src/components/tables/CombinationsTable.tsx:48-49 | with prices 2 and -2 and a ceiling of 1, the pair costs 0 and fits, yet nothing is listed: completeness needs non-negative prices |
| CombinationLaws.ListedInLexOrder | src/components/tables/CombinationsTable.tsx:47-51 | with no negative price, results come in lexicographic order of their positions |
| CombinationLaws.AffordableMonotone | src/components/tables/CombinationsTable.tsx:49 | filtering by a lower ceiling keeps a subsequence of what a higher ceiling keeps |
| CombinationLaws.RaisingCeilingKeepsCombinations | src/components/tables/CombinationsTable.tsx:49 | with no negative price, the result for a lower ceiling is a subsequence of the result for a higher one, for positions and for products |
| CombinationLaws.SizeOutOfReachIsEmpty | src/components/tables/CombinationsTable.tsx:41-47 | a size above the catalog length, or a negative size, yields no combination |
| CombinationLaws.SizeZero | src/components/tables/CombinationsTable.tsx:41-55 | size 0 yields the single empty combination when the ceiling is at least 0, and nothing otherwise |
| CombinationLaws.IncreasingDeterminedBySet | src/components/tables/CombinationsTable.tsx:47-51 | two increasing position sequences with the same elements are equal |
| CombinationLaws.SameHead | src/components/tables/CombinationsTable.tsx:47-51 | two increasing position sequences with the same elements start with the same position |
| CombinationLaws.NoTwoShareAPositionSet | src/components/tables/CombinationsTable.tsx:47-51 | no two listed combinations use the same set of catalog positions |
| Selection.Step | src/components/tables/CombinationsTable.tsx:83-93 | one pass of the `forEach` body shrinks the catalog by one exactly when it drops an entry, and a dropped entry has the product's id and stock at most 0 |
| Selection.FindIndex | src/components/tables/CombinationsTable.tsx:83 | the result is -1 exactly when no entry has the id; otherwise it is the first position with the id |
| Selection.DecrementFirst | src/components/tables/CombinationsTable.tsx:83-94 | one step: the catalog shrinks by one exactly when an entry is dropped; entries with other ids are kept in order; a dropped entry has the id and stock at most 0 |
| Selection.StepIsDecrementFirst | src/components/tables/CombinationsTable.tsx:83-94 | locating the entry, decrementing it and splicing it out is the recursive step; a missing id leaves the catalog unchanged and drops nothing |
| Selection.DecrementAll | src/components/tables/CombinationsTable.tsx:81-95 | the new length is the old length minus the number of entries dropped |
| Selection.DecrementAllKeepsOthers | src/components/tables/CombinationsTable.tsx:81-95 | entries whose id is not in the combination are unchanged and keep their order; every dropped entry has stock at most 0 and an id of the combination |
| Selection.StepAfterExpected | src/components/tables/CombinationsTable.tsx:81-95 | one more step on a partial commit gives the commit with that id included |
| Selection.CommitIsExpected | src/components/tables/CombinationsTable.tsx:81-95 | for a combination with distinct ids, the step-by-step commit equals the single-scan reference: the same catalog, and the same dropped entries as a multiset |
| Selection.ExpectedEntry | src/components/tables/CombinationsTable.tsx:86-93 | in the reference, a named entry is either kept with one unit less or dropped with its decremented record, never both |
| Selection.CommitEntry | src/components/tables/CombinationsTable.tsx:81-95 | with unique catalog ids and distinct combination ids, each named entry ends up either kept with stock lowered by exactly one (stock was above 1) or dropped and recorded as exhausted (stock was at most 1); no other entry with its id remains |
| Selection.SelectAsWritten | src/components/tables/CombinationsTable.tsx:76-104 | the selection history gains exactly the committed combination; the store is the corrected commit's; the removal history gains only the last group the corrected commit adds, or nothing when nothing ran out |
| Selection.Select | src/components/tables/CombinationsTable.tsx:76-104 | the selection history gains exactly the committed combination; the catalog becomes the step-by-step commit's catalog, recounted; the removal history gains each entry the commit dropped, in the order they ran out, as a group of its own, so the catalog shrinks by exactly as many entries as the history gains |
| Selection.SelectEntry | src/components/tables/CombinationsTable.tsx:81-95 | with unique catalog ids and distinct combination ids, every named entry either stays in the catalog with exactly one unit less (stock was above 1), or leaves it and is recorded as its own group in the removal history (stock was at most 1); no other entry with its id remains |
| Selection.RepeatedIdDecrementsFirst | src/components/tables/CombinationsTable.tsx:82-87 | with two entries sharing an id, committing the second takes the unit from the first, and the second stays unchanged |
| Selection.BothRunOut | src/components/tables/CombinationsTable.tsx:81-95 | committing two different single-unit products drops both, in order |
| Selection.StaleHistoryLosesARemoval | src/components/tables/CombinationsTable.tsx:91 | with two single-unit products committed together, both leave the catalog but the source's removal history records only the second; the corrected commit records both |
| ProductStore.Initial | src/store/useStore.ts:18-21 | the initial state holds the loaded catalog, a ceiling of 13, and a counter equal to the catalog length |
| ProductStore.AddProduct | src/store/useStore.ts:22-25 | the product is appended at the end, everything before it is kept, and the counter goes up by one |
| Products.PriceSum | src/components/tables/CombinationsTable.tsx:169 | the `reduce` total of a combination is never negative when no price is negative |
| Products.WithoutIdsMembers | src/store/useStore.ts:26-29 | an entry survives filtering out a set of ids exactly when it was there and its id is not in the set |
| ProductStore.RemoveProduct | src/store/useStore.ts:26-29 | every entry with the id is dropped and only those; the survivors keep their order; the length falls by the number of matches; the counter falls by exactly one |
| Products.WithoutIdsSubsequence | src/store/useStore.ts:26-29 | the `filter` deletes entries and never reorders the ones it keeps |
| ProductStore.UpdateProduct | src/store/useStore.ts:30-34 | the length and the counter are unchanged; every matching entry becomes the update; the entries with other ids are unchanged and in order |
| ProductStore.ReplaceKeepsOthers | src/store/useStore.ts:31-33 | the `map` leaves the entries with other ids as they were |
| ProductStore.Replace | src/store/useStore.ts:31-33 | the `map` keeps the length and puts the update exactly at the positions whose id matches |
| ProductStore.UpdateProductIdempotent | src/store/useStore.ts:30-34 | applying the same update twice equals applying it once |
| ProductStore.SetProducts | src/store/useStore.ts:35-38 | the catalog is replaced and the counter equals its length |
| ProductStore.SetLimit | src/store/useStore.ts:39 | only the ceiling changes |
| ProductStore.SetItemCount | src/store/useStore.ts:40 | only the counter changes |
| ProductStore.ActionKeepsConsistency | src/store/useStore.ts:22-40 | from a consistent state, a transition keeps `itemCount == |products|` exactly when it keeps the count: always for add, update, replace and limit; for remove only when the id occurs once; for setting the counter only when it is set to the length |
| ProductStore.RunKeepsConsistency | src/store/useStore.ts:18-41 | any run of count-keeping transitions from a consistent state ends consistent |
| ProductStore.RemoveDuplicateBreaksCount | src/store/useStore.ts:26-29 | removing an id that occurs twice breaks the counter invariant |
| ProductSort.RawValue | src/components/tables/ProductTable.tsx:28-29 | a column's value is numeric exactly for the id, stock, unit-price and per-unit-stock columns |
| ProductSort.Lower | src/components/tables/ProductTable.tsx:38-39 | lower-casing keeps the length, maps each ASCII capital to its small letter, leaves every other code unit alone, and leaves no ASCII capital behind |
| ProductSort.LowerIdempotent | src/components/tables/ProductTable.tsx:38-39 | lower-casing an already lower-cased string changes nothing |
| ProductSort.KeyOf | src/components/tables/ProductTable.tsx:28-39 | a column's comparison key is numeric exactly for the numeric columns |
| ProductSort.MissingImporterIsEmpty | src/components/tables/ProductTable.tsx:32-33 | a missing importer compares, on either side, exactly like the empty string |
| ProductSort.StrLessTotal | src/components/tables/ProductTable.tsx:48-50 | of two different strings exactly one is less, and no string is less than itself |
| ProductSort.StrLessTransitive | src/components/tables/ProductTable.tsx:48-50 | string order is transitive |
| ProductSort.Compare | src/components/tables/ProductTable.tsx:40-50 | the comparator is negative exactly when the first key goes first in the clicked direction, and positive exactly when the second does |
| ProductSort.CompareLaws | src/components/tables/ProductTable.tsx:42-50 | the comparator is antisymmetric, returns only -1, 0 or 1, and returns 0 exactly on equal keys |
| ProductSort.DescendingReversesAscending | src/components/tables/ProductTable.tsx:42-50 | descending order compares like ascending order with the operands swapped |
| ProductSort.CompareTransitive | src/components/tables/ProductTable.tsx:27-51 | the comparator is transitive, so it is a total preorder the sort can rely on |
| ProductSort.Insert | src/components/tables/ProductTable.tsx:27 | inserting adds exactly that entry: the result is the old list plus `x` as a multiset |
| ProductSort.InsertKeepsOrder | src/components/tables/ProductTable.tsx:27-51 | inserting into a list in comparator order keeps it in comparator order |
| ProductSort.SortedCons | src/components/tables/ProductTable.tsx:27-51 | a sorted list stays sorted under a new head that precedes its first entry |
| ProductSort.Sort | src/components/tables/ProductTable.tsx:27 | the sorted copy is a permutation of the catalog, so it has the same length |
| ProductSort.SortIsSorted | src/components/tables/ProductTable.tsx:27-51 | every pair of adjacent entries of the sorted copy is in comparator order |
| ProductSort.NextDirection | src/components/tables/ProductTable.tsx:22-23 | clicking the current column flips the direction; any other column gives ascending |
| ProductSort.HandleSort | src/components/tables/ProductTable.tsx:21-54 | the new header state names the clicked column with the toggled direction; the store holds a permutation of the catalog, sorted in that direction, recounted, with the ceiling unchanged |
| ProductSort.ClickTwiceRestores | src/components/tables/ProductTable.tsx:22-25 | two clicks on the current column bring the header state back |
| ProductSort.NewColumnSortsAscending | src/components/tables/ProductTable.tsx:22-23 | the first click on a column, or a click on another column, sorts ascending |
| ProductSort.FirstClickSortsAscending | src/components/tables/ProductTable.tsx:9-24 | from the initial header state, the first click on any column selects it ascending |
| ProductSort.NumericColumnOrder | src/components/tables/ProductTable.tsx:40-45 | on a numeric column, ascending gives non-decreasing values and descending gives non-increasing ones |
| ProductSort.TextColumnOrder | src/components/tables/ProductTable.tsx:36-50 | on a string column, ascending never puts a lower-cased value after a larger one, and descending never after a smaller one |

## Left out

- Spreadsheet export and file download are left out. They are foreign library calls and I/O.
- `toFixed(2)` formatting is left out, and so is floating-point rounding of price sums. Prices are exact reals.
- Rendering and React plumbing are left out: the JSX, the `useEffect` re-enumeration trigger, the `useState` wiring, `console` output, and the `try/catch` error banner. The sort's header state is kept as an explicit value (`SortView`) instead.
- The `async`/`await` of the enumerator is left out. Nothing runs concurrently, so the model is plain recursion.
- Creating the store and loading the catalog file are left out. The catalog is a parameter of `ProductStore.Initial`.
- The commit is not modelled with the source's in-place mutation. The source decrements stock on the very records the store's old state and the combination hold. The model computes new records instead, so the committed combination keeps the stock values it was listed with.
- There is no input check on the combination size. The enumerator does not validate its size argument, although the size field declares `min="1"` (src/components/tables/CombinationsTable.tsx:252). For integer sizes the model follows the code: size 0 gives the empty combination and a negative size gives nothing (`CombinationLaws.SizeZero`, `CombinationLaws.SizeOutOfReachIsEmpty`). A fractional size, which the number field allows (line 251), lists nothing in the source because `combo.length === size` never holds; the model's size is an integer and cannot express it.
- Mixed string-and-number comparisons in the sort fallback are left out. Every column is typed as purely numeric or purely textual.
- ProductSort.Lower: only the ASCII capitals A-Z are lower-cased. `toLowerCase` also folds other capitals, such as accented Latin or Greek letters, and the model leaves those unchanged.
- ProductSort.TextColumnOrder: strings are sequences of UTF-16 code units and compare code unit by code unit, as JavaScript's `<` does; the order is only as faithful as `ProductSort.Lower` is to `toLowerCase`.
- Combinations.ListedDifferenceNonNegative: requires the row's ceiling to be at least the one the list was computed with. The list is recomputed only by the Apply button and when the catalog changes (lines 59-73), while the rows always use the current ceiling (line 170). So editing the ceiling without Apply can show a negative difference (`Combinations.LoweredCeilingShowsNegativeDifference`).
- ProductSort.Sort: the contract states a permutation in comparator order, not the order among entries with equal keys. `Array.prototype.sort` is stable, and the model's insertion sort is too, but stability is not stated or proved.
- The record type file `src/interfaces/types.ts` is not part of this model. The model assumes an integer id and stock, a numeric unit price and per-unit stock, a name that is always present, and an importer that may be absent. The null guard of the sort (src/components/tables/ProductTable.tsx:32-33) applies to any column, but only the importer can be missing in the model.
- `src/App.tsx` is component composition only and is left out.
- Selection.CommitEntry: stated per entry only for catalogs with unique ids. The source decrements the first entry with the id (`findIndex`, line 83), which may not be the record the combination holds (`Selection.RepeatedIdDecrementsFirst`). For repeated ids the general statements are `Selection.DecrementAll`, `Selection.DecrementAllKeepsOthers` and `Selection.CommitIsExpected`.
- Selection.SelectEntry: requires unique catalog ids for the same reason as `Selection.CommitEntry`.
- Selection.CommitIsExpected: relates the dropped entries as a multiset. The source records them in combination order and the reference in catalog order.

## Findings

| source | as written | input that shows it | evidently intended | confidence | as-written member | corrected member |
|---|---|---|---|---|---|---|
| src/components/tables/CombinationsTable.tsx:91 | each exhausted product sets the removal history to the history from before the commit plus that product, so within one commit every update but the last is lost | two products with stock 1 committed in one combination: both leave the catalog, but only the second is recorded | every exhausted product is appended to the removal history as its own group | not executed | Selection.SelectAsWritten (shown by Selection.StaleHistoryLosesARemoval) | Selection.Select |

=== FILE: combination_laws.dfy ===
/**
  Properties of the combination enumerator, stated against an independent
  brute-force reference: all increasing position sequences of the requested
  length, in lexicographic order, filtered by the ceiling.
 */
module CombinationLaws {
  import opened Products
  import opened Combinations

  /** Every position lies in [lo, hi). */
  predicate Within(c: seq<nat>, lo: nat, hi: nat)
  {
    forall j :: 0 <= j < |c| ==> lo <= c[j] < hi
  }

  /** `p` followed by each of `cs`. */
  function Prepend(p: seq<nat>, cs: seq<seq<nat>>): (r: seq<seq<nat>>)
    ensures |r| == |cs|
    ensures forall k {:trigger r[k]} :: 0 <= k < |cs| ==> r[k] == p + cs[k]
  {
    if |cs| == 0 then [] else [p + cs[0]] + Prepend(p, cs[1..])
  }

  /**
    All strictly increasing sequences of `k` positions from [start, n), those
    beginning with `start` first: lexicographic order. None of negative length.
   */
  function Choose(k: int, start: nat, n: nat): seq<seq<nat>>
    requires start <= n
    decreases n - start
  {
    if k == 0 then [[]]
    else if k < 0 || start == n then []
    else Prepend([start], Choose(k - 1, start + 1, n)) + Choose(k, start + 1, n)
  }

  /** One step of the reference's recursion: first the choices taking `start`, then those skipping it. */
  lemma ChooseStep(k: int, start: nat, n: nat)
    requires k > 0 && start < n
    ensures Choose(k, start, n) == Prepend([start], Choose(k - 1, start + 1, n)) + Choose(k, start + 1, n)
  {
  }

  /** Each listed sequence has `k` increasing positions from [lo, n). */
  predicate Shaped(cs: seq<seq<nat>>, k: int, lo: nat, n: nat)
  {
    forall c :: c in cs ==> |c| == k && Increasing(c) && Within(c, lo, n)
  }

  /** The reference lists only increasing sequences of `k` positions from [start, n). */
  lemma {:induction false} ChooseShape(k: int, start: nat, n: nat)
    requires start <= n
    ensures Shaped(Choose(k, start, n), k, start, n)
    decreases n - start
  {
    if k > 0 && start < n {
      ChooseShape(k - 1, start + 1, n);
      ChooseShape(k, start + 1, n);
      ShapeStep(k, start, n);
    } else {
      ShapeBase(k, start, n);
    }
  }

  lemma ShapeBase(k: int, start: nat, n: nat)
    requires start <= n && (k <= 0 || start == n)
    ensures Shaped(Choose(k, start, n), k, start, n)
  {
    if k == 0 {
      assert Choose(k, start, n) == [[]];
    } else {
      assert Choose(k, start, n) == [];
    }
  }

  lemma ShapeStep(k: int, start: nat, n: nat)
    requires k > 0 && start < n
    requires Shaped(Choose(k - 1, start + 1, n), k - 1, start + 1, n)
    requires Shaped(Choose(k, start + 1, n), k, start + 1, n)
    ensures Shaped(Choose(k, start, n), k, start, n)
  {
    var tails := Choose(k - 1, start + 1, n);
    StartThenTails(start, tails, k, n);
    ChooseStep(k, start, n);
    ShapedConcat(Choose(k, start, n), Prepend([start], tails), Choose(k, start + 1, n), k, start, n);
  }

  lemma ShapedConcat(all: seq<seq<nat>>, front: seq<seq<nat>>, rest: seq<seq<nat>>, k: int, lo: nat, n: nat)
    requires all == front + rest
    requires Shaped(front, k, lo, n) && Shaped(rest, k, lo + 1, n)
    ensures Shaped(all, k, lo, n)
  {
    forall c | c in all
      ensures |c| == k && Increasing(c) && Within(c, lo, n)
    {
      if c !in front {
        assert c in rest;
      }
    }
  }

  /** Putting `start` before increasing positions from [start + 1, n) keeps them increasing. */
  lemma StartThenTail(start: nat, t: seq<nat>, n: nat)
    requires Increasing(t) && Within(t, start + 1, n) && start < n
    ensures Increasing([start] + t) && Within([start] + t, start, n)
  {
    var c := [start] + t;
    forall a, b | 0 <= a < b < |c|
      ensures c[a] < c[b]
    {
      if a > 0 {
        assert c[a] == t[a - 1] && c[b] == t[b - 1];
      } else {
        assert c[b] == t[b - 1];
      }
    }
  }

  lemma StartThenTails(start: nat, tails: seq<seq<nat>>, k: int, n: nat)
    requires Shaped(tails, k - 1, start + 1, n)
    requires start < n
    ensures Shaped(Prepend([start], tails), k, start, n)
  {
    var front := Prepend([start], tails);
    forall c | c in front
      ensures |c| == k && Increasing(c) && Within(c, start, n)
    {
      var x :| 0 <= x < |front| && front[x] == c;
      assert tails[x] in tails;
      StartThenTail(start, tails[x], n);
    }
  }

  /** A combination within the ceiling, length aside. */
  predicate WithinCeiling(arr: seq<Product>, maxPrice: real, c: seq<nat>)
  {
    InRange(|arr|, c) && Cost(arr, c) <= maxPrice
  }

  /** The candidates that are within the ceiling, in their order. */
  function Affordable(arr: seq<Product>, maxPrice: real, cs: seq<seq<nat>>): (r: seq<seq<nat>>)
    ensures forall c :: c in r <==> c in cs && WithinCeiling(arr, maxPrice, c)
  {
    if |cs| == 0 then []
    else (if WithinCeiling(arr, maxPrice, cs[0]) then [cs[0]] else [])
         + Affordable(arr, maxPrice, cs[1..])
  }

  /** Brute force: every choice of `size` positions, kept when within the ceiling. */
  function Reference(arr: seq<Product>, size: int, maxPrice: real): seq<seq<nat>>
  {
    Affordable(arr, maxPrice, Choose(size, 0, |arr|))
  }

  lemma PrependConcat(p: seq<nat>, a: seq<seq<nat>>, b: seq<seq<nat>>)
    ensures Prepend(p, a + b) == Prepend(p, a) + Prepend(p, b)
  {
    assert |Prepend(p, a + b)| == |Prepend(p, a) + Prepend(p, b)|;
  }

  lemma PrependPrepend(p: seq<nat>, q: seq<nat>, cs: seq<seq<nat>>)
    ensures Prepend(p, Prepend(q, cs)) == Prepend(p + q, cs)
  {
    var left := Prepend(p, Prepend(q, cs));
    var right := Prepend(p + q, cs);
    assert |left| == |right|;
    forall k | 0 <= k < |cs|
      ensures left[k] == right[k]
    {
      assert left[k] == p + (q + cs[k]);
      assert right[k] == (p + q) + cs[k];
    }
  }

  lemma PrependEmpty(cs: seq<seq<nat>>)
    ensures Prepend([], cs) == cs
  {
    forall k | 0 <= k < |cs|
      ensures Prepend([], cs)[k] == cs[k]
    {
      assert [] + cs[k] == cs[k];
    }
  }

  lemma {:induction false} AffordableConcat(arr: seq<Product>, maxPrice: real, a: seq<seq<nat>>, b: seq<seq<nat>>)
    ensures Affordable(arr, maxPrice, a + b) == Affordable(arr, maxPrice, a) + Affordable(arr, maxPrice, b)
    decreases |a|
  {
    if |a| == 0 {
      assert a + b == b;
    } else {
      assert (a + b)[1..] == a[1..] + b;
      AffordableConcat(arr, maxPrice, a[1..], b);
    }
  }

  lemma PickConcat(arr: seq<Product>, p: seq<nat>, c: seq<nat>)
    requires InRange(|arr|, p + c)
    ensures InRange(|arr|, p) && InRange(|arr|, c)
    ensures Pick(arr, p + c) == Pick(arr, p) + Pick(arr, c)
  {
    forall j | 0 <= j < |p|
      ensures p[j] < |arr|
    {
      assert p[j] == (p + c)[j];
    }
    forall j | 0 <= j < |c|
      ensures c[j] < |arr|
    {
      assert c[j] == (p + c)[|p| + j];
    }
  }

  lemma PickNonNegative(arr: seq<Product>, c: seq<nat>)
    requires NonNegativePrices(arr) && InRange(|arr|, c)
    ensures NonNegativePrices(Pick(arr, c))
  {
  }

  /** With no negative price, extending a combination never lowers its cost. */
  lemma CostPrefix(arr: seq<Product>, p: seq<nat>, c: seq<nat>)
    requires NonNegativePrices(arr)
    requires InRange(|arr|, p + c)
    ensures InRange(|arr|, p) && InRange(|arr|, c)
    ensures Cost(arr, p + c) >= Cost(arr, p)
  {
    PickConcat(arr, p, c);
    PriceSumAppend(Pick(arr, p), Pick(arr, c));
    PickNonNegative(arr, c);
  }

  /** A sequence with no member is empty. */
  lemma NoMemberIsEmpty<T>(r: seq<T>)
    ensures (forall c :: c !in r) ==> r == []
  {
    assert |r| == 0 || r[0] in r;
  }

  /** The pruning at the `if (newTotalPrice <= maxPrice)` loses nothing. */
  lemma PrunedBranchEmpty(arr: seq<Product>, maxPrice: real, p: seq<nat>, tails: seq<seq<nat>>)
    requires NonNegativePrices(arr)
    requires InRange(|arr|, p) && Cost(arr, p) > maxPrice
    ensures Affordable(arr, maxPrice, Prepend(p, tails)) == []
  {
    var cs := Prepend(p, tails);
    forall c | c in cs
      ensures !WithinCeiling(arr, maxPrice, c)
    {
      var k :| 0 <= k < |cs| && cs[k] == c;
      if InRange(|arr|, c) {
        CostPrefix(arr, p, tails[k]);
      }
    }
    NoMemberIsEmpty(Affordable(arr, maxPrice, cs));
  }

  /**
    The reference's completions of `combo` by `k` more positions from
    [i, |arr|) that stay within the ceiling, in reference order.
   */
  function Completions(arr: seq<Product>, maxPrice: real, combo: seq<nat>, k: int, i: nat): seq<seq<nat>>
    requires i <= |arr|
  {
    Affordable(arr, maxPrice, Prepend(combo, Choose(k, i, |arr|)))
  }

  /**
    With no negative price, `combine` from any reachable state lists exactly
    the reference's completions of `combo` that are within the ceiling, in
    reference order.
   */
  lemma {:induction false} SearchIsReference(arr: seq<Product>, size: int, maxPrice: real,
                                             start: nat, combo: seq<nat>, total: real, k: nat)
    requires NonNegativePrices(arr)
    requires SearchState(arr, start, combo, total)
    requires k == size - |combo|
    ensures Search(arr, size, maxPrice, start, combo, total) == Completions(arr, maxPrice, combo, k, start)
    decreases |arr| - start, 2
  {
    if k == 0 {
      SearchDoneIsReference(arr, size, maxPrice, start, combo, total);
    } else {
      ScanIsReference(arr, size, maxPrice, start, combo, total, k);
    }
  }

  /** A full combination is listed exactly when the reference keeps it. */
  lemma SearchDoneIsReference(arr: seq<Product>, size: int, maxPrice: real,
                              start: nat, combo: seq<nat>, total: real)
    requires SearchState(arr, start, combo, total) && |combo| == size
    ensures Search(arr, size, maxPrice, start, combo, total) == Completions(arr, maxPrice, combo, 0, start)
  {
    assert Choose(0, start, |arr|) == [[]];
    assert Prepend(combo, [[]]) == [combo + []];
    assert combo + [] == combo;
    assert InRange(|arr|, combo);
    AffordableSingle(arr, maxPrice, combo);
  }

  /** A single candidate survives exactly when it is within the ceiling. */
  lemma AffordableSingle(arr: seq<Product>, maxPrice: real, c: seq<nat>)
    ensures Affordable(arr, maxPrice, [c]) == if WithinCeiling(arr, maxPrice, c) then [c] else []
  {
    assert [c][1..] == [];
    assert Affordable(arr, maxPrice, []) == [];
  }

  lemma {:induction false} ScanIsReference(arr: seq<Product>, size: int, maxPrice: real,
                                           i: nat, combo: seq<nat>, total: real, k: nat)
    requires NonNegativePrices(arr)
    requires SearchState(arr, i, combo, total)
    requires k == size - |combo| && k > 0
    ensures Scan(arr, size, maxPrice, i, combo, total) == Completions(arr, maxPrice, combo, k, i)
    decreases |arr| - i, 1
  {
    if i == |arr| {
      assert Choose(k, i, |arr|) == [];
    } else if total + arr[i].unitPrice <= maxPrice {
      TakenIsReference(arr, size, maxPrice, i, combo, total, k);
    } else {
      PrunedIsReference(arr, size, maxPrice, i, combo, total, k);
    }
  }

  /** Within the ceiling, the loop's two groups are the reference's two parts. */
  lemma {:induction false} TakenIsReference(arr: seq<Product>, size: int, maxPrice: real,
                                            i: nat, combo: seq<nat>, total: real, k: nat)
    requires NonNegativePrices(arr)
    requires SearchState(arr, i, combo, total) && i < |arr|
    requires k == size - |combo| && k > 0
    requires total + arr[i].unitPrice <= maxPrice
    ensures Scan(arr, size, maxPrice, i, combo, total) == Completions(arr, maxPrice, combo, k, i)
    decreases |arr| - i, 0
  {
    var newTotal := total + arr[i].unitPrice;
    NextStates(arr, i, combo, total);
    ScanIsReference(arr, size, maxPrice, i + 1, combo, total, k);
    SearchIsReference(arr, size, maxPrice, i + 1, combo + [i], newTotal, k - 1);
    ReferenceSplits(arr, maxPrice, combo, i, k);
    ScanStep(arr, size, maxPrice, i, combo, total);
    JoinParts(Scan(arr, size, maxPrice, i, combo, total),
              Search(arr, size, maxPrice, i + 1, combo + [i], newTotal),
              Scan(arr, size, maxPrice, i + 1, combo, total),
              Completions(arr, maxPrice, combo, k, i),
              Completions(arr, maxPrice, combo + [i], k - 1, i + 1),
              Completions(arr, maxPrice, combo, k, i + 1));
  }

  /** Two lists split alike, part for part, are equal. */
  lemma JoinParts(all: seq<seq<nat>>, front: seq<seq<nat>>, rest: seq<seq<nat>>,
                  ref: seq<seq<nat>>, refFront: seq<seq<nat>>, refRest: seq<seq<nat>>)
    requires all == front + rest && ref == refFront + refRest
    requires front == refFront && rest == refRest
    ensures all == ref
  {
  }

  /** Over the ceiling, the loop drops a part of the reference that is empty anyway. */
  lemma {:induction false} PrunedIsReference(arr: seq<Product>, size: int, maxPrice: real,
                                             i: nat, combo: seq<nat>, total: real, k: nat)
    requires NonNegativePrices(arr)
    requires SearchState(arr, i, combo, total) && i < |arr|
    requires k == size - |combo| && k > 0
    requires total + arr[i].unitPrice > maxPrice
    ensures Scan(arr, size, maxPrice, i, combo, total) == Completions(arr, maxPrice, combo, k, i)
    decreases |arr| - i, 0
  {
    NextStates(arr, i, combo, total);
    ScanIsReference(arr, size, maxPrice, i + 1, combo, total, k);
    CostExtend(arr, combo, i);
    PrunedBranchEmpty(arr, maxPrice, combo + [i], Choose(k - 1, i + 1, |arr|));
    ReferenceSplits(arr, maxPrice, combo, i, k);
    ScanStep(arr, size, maxPrice, i, combo, total);
  }

  /** The reference from position `i` is the part taking `i` followed by the part skipping it. */
  lemma ReferenceSplits(arr: seq<Product>, maxPrice: real, combo: seq<nat>, i: nat, k: int)
    requires i < |arr| && k > 0
    ensures Completions(arr, maxPrice, combo, k, i)
            == Completions(arr, maxPrice, combo + [i], k - 1, i + 1) + Completions(arr, maxPrice, combo, k, i + 1)
  {
    var n := |arr|;
    var taken := Choose(k - 1, i + 1, n);
    var skipped := Choose(k, i + 1, n);
    assert Choose(k, i, n) == Prepend([i], taken) + skipped;
    PrependConcat(combo, Prepend([i], taken), skipped);
    PrependPrepend(combo, [i], taken);
    AffordableConcat(arr, maxPrice, Prepend(combo + [i], taken), Prepend(combo, skipped));
  }

  /**
    Completeness: with no negative price, `getCombinations` lists exactly the
    brute-force reference — every increasing choice of `size` positions within
    the ceiling, in lexicographic order.
   */
  lemma CompleteForNonNegativePrices(arr: seq<Product>, size: int, maxPrice: real)
    requires NonNegativePrices(arr)
    ensures IndexCombinations(arr, size, maxPrice) == Reference(arr, size, maxPrice)
  {
    var res := IndexCombinations(arr, size, maxPrice);
    if size < 0 {
      assert forall c :: c in res ==> |c| == size;
      NoMemberIsEmpty(res);
    } else {
      assert Pick(arr, []) == [];
      SearchIsReference(arr, size, maxPrice, 0, [], 0.0, size);
      PrependEmpty(Choose(size, 0, |arr|));
    }
  }

  /** Every increasing choice of `k` positions from [start, n) is one the reference lists. */
  lemma {:induction false} ChooseComplete(c: seq<nat>, k: int, start: nat, n: nat)
    requires start <= n
    requires |c| == k && Increasing(c) && Within(c, start, n)
    ensures c in Choose(k, start, n)
    decreases n - start, 1
  {
    if k == 0 {
      CompleteBase(c, start, n);
    } else if c[0] == start {
      CompleteWithStart(c, k, start, n);
    } else {
      CompleteWithoutStart(c, k, start, n);
    }
  }

  /** A choice that begins at `start` is found among those taking `start`. */
  lemma {:induction false} CompleteWithStart(c: seq<nat>, k: int, start: nat, n: nat)
    requires start <= n && k > 0
    requires |c| == k && Increasing(c) && Within(c, start, n) && c[0] == start
    ensures c in Choose(k, start, n)
    decreases n - start, 0
  {
    TailOfIncreasing(c, start, n);
    ChooseComplete(c[1..], k - 1, start + 1, n);
    CompleteTaken(c, k, start, n);
  }

  /** A choice that begins after `start` is found among those skipping `start`. */
  lemma {:induction false} CompleteWithoutStart(c: seq<nat>, k: int, start: nat, n: nat)
    requires start <= n && k > 0
    requires |c| == k && Increasing(c) && Within(c, start, n) && c[0] != start
    ensures c in Choose(k, start, n)
    decreases n - start, 0
  {
    HeadAfterStart(c, start, n);
    ChooseComplete(c, k, start + 1, n);
    CompleteSkipped(c, k, start, n);
  }

  lemma CompleteBase(c: seq<nat>, start: nat, n: nat)
    requires start <= n && |c| == 0
    ensures c in Choose(0, start, n)
  {
    assert c == [];
    assert Choose(0, start, n) == [[]];
  }

  /** Increasing positions from [start, n) that do not begin at `start` all lie in [start + 1, n). */
  lemma HeadAfterStart(c: seq<nat>, start: nat, n: nat)
    requires |c| > 0 && Increasing(c) && Within(c, start, n) && c[0] != start
    ensures start < n && Within(c, start + 1, n)
  {
    forall j | 0 <= j < |c|
      ensures start + 1 <= c[j]
    {
      if j > 0 {
        assert c[0] < c[j];
      }
    }
  }

  lemma CompleteTaken(c: seq<nat>, k: int, start: nat, n: nat)
    requires k > 0 && start < n && |c| > 0 && c[0] == start
    requires c[1..] in Choose(k - 1, start + 1, n)
    ensures c in Choose(k, start, n)
  {
    var tails := Choose(k - 1, start + 1, n);
    InPrepend(tails, c);
    ChooseStep(k, start, n);
    InConcat(c, Choose(k, start, n), Prepend([start], tails), Choose(k, start + 1, n));
  }

  lemma CompleteSkipped(c: seq<nat>, k: int, start: nat, n: nat)
    requires k > 0 && start < n
    requires c in Choose(k, start + 1, n)
    ensures c in Choose(k, start, n)
  {
    ChooseStep(k, start, n);
    InConcat(c, Choose(k, start, n), Prepend([start], Choose(k - 1, start + 1, n)), Choose(k, start + 1, n));
  }

  lemma InConcat(c: seq<nat>, all: seq<seq<nat>>, front: seq<seq<nat>>, rest: seq<seq<nat>>)
    requires all == front + rest && (c in front || c in rest)
    ensures c in all
  {
  }

  lemma TailOfIncreasing(c: seq<nat>, start: nat, n: nat)
    requires |c| > 0 && Increasing(c) && Within(c, start, n) && c[0] == start
    ensures start < n && Increasing(c[1..]) && Within(c[1..], start + 1, n)
  {
    forall j | 0 <= j < |c| - 1
      ensures start + 1 <= c[1..][j] < n
    {
      assert c[0] < c[j + 1];
    }
  }

  /** A sequence whose tail is among `tails` is among the choices that put its head first. */
  lemma InPrepend(tails: seq<seq<nat>>, c: seq<nat>)
    requires |c| > 0 && c[1..] in tails
    ensures c in Prepend([c[0]], tails)
  {
    var j :| 0 <= j < |tails| && tails[j] == c[1..];
    assert [c[0]] + c[1..] == c;
    assert Prepend([c[0]], tails)[j] == c;
  }

  /**
    With no negative price, a position sequence is listed exactly when it has
    `size` increasing positions whose prices sum to at most `maxPrice`.
   */
  lemma ListedIffFits(arr: seq<Product>, size: int, maxPrice: real, c: seq<nat>)
    requires NonNegativePrices(arr)
    ensures c in IndexCombinations(arr, size, maxPrice) <==> Fits(arr, size, maxPrice, c)
  {
    CompleteForNonNegativePrices(arr, size, maxPrice);
    if Fits(arr, size, maxPrice, c) {
      ChooseComplete(c, size, 0, |arr|);
    }
  }

  /**
    Without the price condition completeness fails: a negative price after an
    expensive one is never reached, because the expensive one alone already
    exceeds the ceiling and its branch is pruned.
   */
  lemma NegativePriceDefeatsPruning(p: Product, q: Product)
    requires p.unitPrice == 2.0 && q.unitPrice == -2.0
    ensures Fits([p, q], 2, 1.0, [0, 1])
    ensures IndexCombinations([p, q], 2, 1.0) == []
  {
    var arr := [p, q];
    PairCostsNothing(p, q);
    assert Pick(arr, []) == [];
    assert Search(arr, 2, 1.0, 0, [], 0.0) == Scan(arr, 2, 1.0, 0, [], 0.0);
    ScanStep(arr, 2, 1.0, 0, [], 0.0);
    ScanStep(arr, 2, 1.0, 1, [], 0.0);
    assert Scan(arr, 2, 1.0, 2, [], 0.0) == [];
    assert SearchState(arr, 2, [1], -2.0);
    assert Search(arr, 2, 1.0, 2, [1], -2.0) == [];
  }

  lemma PairCostsNothing(p: Product, q: Product)
    requires p.unitPrice == 2.0 && q.unitPrice == -2.0
    ensures Fits([p, q], 2, 1.0, [0, 1])
    ensures Cost([p, q], [1]) == -2.0
  {
    var arr := [p, q];
    assert Pick(arr, [0, 1]) == [p, q];
    assert [p, q][..1] == [p];
    assert [p][..0] == [];
    assert PriceSum([p]) == 2.0;
    assert PriceSum([p, q]) == 0.0;
    assert Pick(arr, [1]) == [q];
    assert [q][..0] == [];
    assert PriceSum([q]) == -2.0;
  }

  /** Lexicographic order on position sequences. */
  predicate LexLess(a: seq<nat>, b: seq<nat>)
    decreases |a|
  {
    |a| > 0 && |b| > 0 && (a[0] < b[0] || (a[0] == b[0] && LexLess(a[1..], b[1..])))
  }

  predicate LexSorted(cs: seq<seq<nat>>)
  {
    forall a, b {:trigger LexLess(cs[a], cs[b])} :: 0 <= a < b < |cs| ==> LexLess(cs[a], cs[b])
  }

  /** Every member of `front` is lexicographically below every member of `rest`. */
  predicate AllBefore(front: seq<seq<nat>>, rest: seq<seq<nat>>)
  {
    forall a, b {:trigger LexLess(front[a], rest[b])} :: 0 <= a < |front| && 0 <= b < |rest| ==> LexLess(front[a], rest[b])
  }

  lemma {:induction false} ChooseLexSorted(k: int, start: nat, n: nat)
    requires start <= n
    ensures LexSorted(Choose(k, start, n))
    decreases n - start
  {
    if k > 0 && start < n {
      ChooseLexSorted(k - 1, start + 1, n);
      ChooseLexSorted(k, start + 1, n);
      LexSortedStep(k, start, n);
    } else if k == 0 {
      assert Choose(k, start, n) == [[]];
    } else {
      assert Choose(k, start, n) == [];
    }
  }

  lemma LexSortedStep(k: int, start: nat, n: nat)
    requires k > 0 && start < n
    requires LexSorted(Choose(k - 1, start + 1, n)) && LexSorted(Choose(k, start + 1, n))
    ensures LexSorted(Choose(k, start, n))
  {
    var tails := Choose(k - 1, start + 1, n);
    var rest := Choose(k, start + 1, n);
    var front := Prepend([start], tails);
    PrependKeepsLexOrder(start, tails);
    TakenBeforeSkipped(k, start, n, front, tails, rest);
    LexSortedConcat(front, rest);
    ChooseStep(k, start, n);
    SortedSame(Choose(k, start, n), front + rest);
  }

  lemma SortedSame(x: seq<seq<nat>>, y: seq<seq<nat>>)
    requires x == y && LexSorted(y)
    ensures LexSorted(x)
  {
  }

  /** Every choice taking `start` comes before every choice skipping it. */
  lemma TakenBeforeSkipped(k: int, start: nat, n: nat, front: seq<seq<nat>>, tails: seq<seq<nat>>, rest: seq<seq<nat>>)
    requires k > 0 && start < n && front == Prepend([start], tails) && rest == Choose(k, start + 1, n)
    ensures AllBefore(front, rest)
  {
    ChooseShape(k, start + 1, n);
    forall a, b | 0 <= a < |front| && 0 <= b < |rest|
      ensures LexLess(front[a], rest[b])
    {
      assert rest[b] in rest;
      assert front[a][0] == start;
    }
  }

  lemma PrependKeepsLexOrder(start: nat, tails: seq<seq<nat>>)
    requires LexSorted(tails)
    ensures LexSorted(Prepend([start], tails))
  {
    var front := Prepend([start], tails);
    forall a, b | 0 <= a < b < |front|
      ensures LexLess(front[a], front[b])
    {
      assert front[a][1..] == tails[a] && front[b][1..] == tails[b];
    }
  }

  lemma LexSortedConcat(front: seq<seq<nat>>, rest: seq<seq<nat>>)
    requires LexSorted(front) && LexSorted(rest)
    requires AllBefore(front, rest)
    ensures LexSorted(front + rest)
  {
    var all := front + rest;
    forall a, b | 0 <= a < b < |all|
      ensures LexLess(all[a], all[b])
    {
      if b < |front| {
        assert all[a] == front[a] && all[b] == front[b];
      } else if a < |front| {
        assert all[a] == front[a] && all[b] == rest[b - |front|];
      } else {
        assert all[a] == rest[a - |front|] && all[b] == rest[b - |front|];
      }
    }
  }

  lemma {:induction false} AffordableKeepsOrder(arr: seq<Product>, maxPrice: real, cs: seq<seq<nat>>)
    requires LexSorted(cs)
    ensures LexSorted(Affordable(arr, maxPrice, cs))
    decreases |cs|
  {
    if |cs| > 0 {
      AffordableKeepsOrder(arr, maxPrice, cs[1..]);
      var tail := Affordable(arr, maxPrice, cs[1..]);
      forall b | 0 <= b < |tail|
        ensures LexLess(cs[0], tail[b])
      {
        assert tail[b] in tail;
        var j :| 0 <= j < |cs[1..]| && cs[1..][j] == tail[b];
        assert cs[j + 1] == tail[b];
      }
      var all := Affordable(arr, maxPrice, cs);
      if WithinCeiling(arr, maxPrice, cs[0]) {
        forall a, b | 0 <= a < b < |all|
          ensures LexLess(all[a], all[b])
        {
          if a == 0 {
            assert all[b] == tail[b - 1];
          } else {
            assert all[a] == tail[a - 1] && all[b] == tail[b - 1];
          }
        }
      }
    }
  }

  /** With no negative price, results come in lexicographic order of their positions. */
  lemma ListedInLexOrder(arr: seq<Product>, size: int, maxPrice: real)
    requires NonNegativePrices(arr)
    ensures LexSorted(IndexCombinations(arr, size, maxPrice))
  {
    CompleteForNonNegativePrices(arr, size, maxPrice);
    ChooseLexSorted(size, 0, |arr|);
    AffordableKeepsOrder(arr, maxPrice, Choose(size, 0, |arr|));
  }

  lemma {:induction false} AffordableMonotone(arr: seq<Product>, lo: real, hi: real, cs: seq<seq<nat>>)
    requires lo <= hi
    ensures IsSubsequence(Affordable(arr, lo, cs), Affordable(arr, hi, cs))
    decreases |cs|
  {
    if |cs| > 0 {
      AffordableMonotone(arr, lo, hi, cs[1..]);
      var a := Affordable(arr, lo, cs[1..]);
      var b := Affordable(arr, hi, cs[1..]);
      if WithinCeiling(arr, lo, cs[0]) {
        assert Affordable(arr, lo, cs) == [cs[0]] + a;
        assert Affordable(arr, hi, cs) == [cs[0]] + b;
        assert ([cs[0]] + a)[1..] == a && ([cs[0]] + b)[1..] == b;
      } else if WithinCeiling(arr, hi, cs[0]) {
        assert Affordable(arr, lo, cs) == a;
        assert Affordable(arr, hi, cs) == [cs[0]] + b;
        assert ([cs[0]] + b)[1..] == b;
        assert |a| == 0 || IsSubsequence(a, ([cs[0]] + b)[1..]);
      } else {
        assert Affordable(arr, lo, cs) == a;
        assert Affordable(arr, hi, cs) == b;
      }
    }
  }

  lemma {:induction false} PickAllKeepsSubsequence(arr: seq<Product>, a: seq<seq<nat>>, b: seq<seq<nat>>)
    requires forall c :: c in a ==> InRange(|arr|, c)
    requires forall c :: c in b ==> InRange(|arr|, c)
    requires IsSubsequence(a, b)
    ensures IsSubsequence(PickAll(arr, a), PickAll(arr, b))
    decreases |b|
  {
    if |a| > 0 {
      assert PickAll(arr, b)[1..] == PickAll(arr, b[1..]);
      if a[0] == b[0] && IsSubsequence(a[1..], b[1..]) {
        assert PickAll(arr, a)[1..] == PickAll(arr, a[1..]);
        PickAllKeepsSubsequence(arr, a[1..], b[1..]);
      } else {
        PickAllKeepsSubsequence(arr, a, b[1..]);
      }
    }
  }

  /**
    Monotonicity: with no negative price, raising the ceiling never drops a
    combination; the lower ceiling's list is a subsequence of the higher's.
   */
  lemma RaisingCeilingKeepsCombinations(arr: seq<Product>, size: int, lo: real, hi: real)
    requires NonNegativePrices(arr)
    requires lo <= hi
    ensures IsSubsequence(IndexCombinations(arr, size, lo), IndexCombinations(arr, size, hi))
    ensures IsSubsequence(GetCombinations(arr, size, lo), GetCombinations(arr, size, hi))
  {
    CompleteForNonNegativePrices(arr, size, lo);
    CompleteForNonNegativePrices(arr, size, hi);
    AffordableMonotone(arr, lo, hi, Choose(size, 0, |arr|));
    PickAllKeepsSubsequence(arr, IndexCombinations(arr, size, lo), IndexCombinations(arr, size, hi));
  }

  /** Increasing positions below `n` are at most `n` of them. */
  lemma {:induction false} IncreasingLength(c: seq<nat>, n: nat)
    requires Increasing(c) && InRange(n, c)
    ensures |c| <= n
    decreases |c|
  {
    if |c| > 0 {
      var last := c[|c| - 1];
      IncreasingLength(c[..|c| - 1], last);
    }
  }

  /**
    A size larger than the inventory, or a negative one, yields no
    combination, whatever the prices.
   */
  lemma SizeOutOfReachIsEmpty(arr: seq<Product>, size: int, maxPrice: real)
    requires size < 0 || size > |arr|
    ensures IndexCombinations(arr, size, maxPrice) == []
    ensures GetCombinations(arr, size, maxPrice) == []
  {
    var res := IndexCombinations(arr, size, maxPrice);
    forall c | c in res
      ensures false
    {
      IncreasingLength(c, |arr|);
    }
    NoMemberIsEmpty(res);
  }

  /** Size zero yields the single empty combination exactly when the ceiling is not negative. */
  lemma SizeZero(arr: seq<Product>, maxPrice: real)
    ensures IndexCombinations(arr, 0, maxPrice) == (if 0.0 <= maxPrice then [[]] else [])
    ensures GetCombinations(arr, 0, maxPrice) == (if 0.0 <= maxPrice then [[]] else [])
  {
    assert Pick(arr, []) == [];
  }

  /** The positions a combination uses, as a set. */
  function PositionSet(c: seq<nat>): set<nat>
  {
    set x | x in c
  }

  /** An increasing sequence is determined by the set of its elements. */
  lemma {:induction false} IncreasingDeterminedBySet(a: seq<nat>, b: seq<nat>)
    requires Increasing(a) && Increasing(b)
    requires PositionSet(a) == PositionSet(b)
    ensures a == b
    decreases |a|
  {
    if |a| == 0 || |b| == 0 {
      EmptyPositionSet(a);
      EmptyPositionSet(b);
    } else {
      SameHead(a, b);
      TailPositionSet(a);
      TailPositionSet(b);
      IncreasingDeterminedBySet(a[1..], b[1..]);
      HeadAndTail(a, b);
    }
  }

  /** Only the empty sequence has the empty position set. */
  lemma EmptyPositionSet(a: seq<nat>)
    ensures PositionSet(a) == {} <==> |a| == 0
  {
    if |a| > 0 {
      assert a[0] in PositionSet(a);
    }
  }

  /** The first element of an increasing sequence is its least element. */
  lemma HeadIsLeast(a: seq<nat>, x: nat)
    requires Increasing(a) && |a| > 0 && x in PositionSet(a)
    ensures a[0] <= x
  {
  }

  /** Two increasing sequences with the same position set start alike. */
  lemma SameHead(a: seq<nat>, b: seq<nat>)
    requires Increasing(a) && Increasing(b) && |a| > 0 && |b| > 0
    requires PositionSet(a) == PositionSet(b)
    ensures a[0] == b[0]
  {
    assert a[0] in PositionSet(a) && b[0] in PositionSet(b);
    HeadIsLeast(a, b[0]);
    HeadIsLeast(b, a[0]);
  }

  /** Dropping the head of an increasing sequence drops exactly that element. */
  lemma TailPositionSet(a: seq<nat>)
    requires Increasing(a) && |a| > 0
    ensures Increasing(a[1..])
    ensures PositionSet(a[1..]) == PositionSet(a) - {a[0]}
  {
    assert forall x :: x in a[1..] ==> x > a[0];
    assert forall x :: x in a && x != a[0] ==> x in a[1..];
  }

  lemma HeadAndTail(a: seq<nat>, b: seq<nat>)
    requires |a| > 0 && |b| > 0 && a[0] == b[0] && a[1..] == b[1..]
    ensures a == b
  {
    assert a == [a[0]] + a[1..] && b == [b[0]] + b[1..];
  }

  /** No two listed combinations use the same set of source positions. */
  lemma NoTwoShareAPositionSet(arr: seq<Product>, size: int, maxPrice: real, x: nat, y: nat)
    requires x < y < |IndexCombinations(arr, size, maxPrice)|
    ensures var res := IndexCombinations(arr, size, maxPrice);
            PositionSet(res[x]) != PositionSet(res[y])
  {
    var res := IndexCombinations(arr, size, maxPrice);
    assert res[x] in res && res[y] in res;
    ListedOnce(arr, size, maxPrice);
    if PositionSet(res[x]) == PositionSet(res[y]) {
      IncreasingDeterminedBySet(res[x], res[y]);
    }
  }
}

=== FILE: combinations.dfy ===
/**
  The combination enumerator of the combinations table: a backtracking
  search over increasing source positions that emits every choice of
  exactly `size` products whose summed unit price stays within the
  ceiling, pruning a branch as soon as the running total would exceed it.

  The search is modelled over positions (`seq<nat>`); the product
  combinations are the products at those positions. `Search` is the inner
  `combine`, `Scan` its `for` loop over the remaining positions.
 */
module Combinations {
  import opened Products

  /** Every position is a valid index into a list of length `n`. */
  predicate InRange(n: nat, c: seq<nat>)
  {
    forall j :: 0 <= j < |c| ==> c[j] < n
  }

  /** Strictly increasing positions: no position repeats and source order is kept. */
  predicate Increasing(c: seq<nat>)
  {
    forall a, b :: 0 <= a < b < |c| ==> c[a] < c[b]
  }

  /** Every position lies before `bound`. */
  predicate Below(c: seq<nat>, bound: nat)
  {
    forall j :: 0 <= j < |c| ==> c[j] < bound
  }

  /** The products at the given positions. */
  function Pick(arr: seq<Product>, c: seq<nat>): (r: seq<Product>)
    requires InRange(|arr|, c)
    ensures |r| == |c|
    ensures forall j :: 0 <= j < |c| ==> r[j] == arr[c[j]]
  {
    seq(|c|, j requires 0 <= j < |c| => arr[c[j]])
  }

  /** Summed unit price of the products at the given positions. */
  function Cost(arr: seq<Product>, c: seq<nat>): real
    requires InRange(|arr|, c)
  {
    PriceSum(Pick(arr, c))
  }

  lemma CostExtend(arr: seq<Product>, c: seq<nat>, i: nat)
    requires InRange(|arr|, c) && i < |arr|
    ensures InRange(|arr|, c + [i])
    ensures Cost(arr, c + [i]) == Cost(arr, c) + arr[i].unitPrice
  {
    assert Pick(arr, c + [i]) == Pick(arr, c) + [arr[i]];
    PriceSumAppend(Pick(arr, c), [arr[i]]);
    assert PriceSum([arr[i]]) == arr[i].unitPrice by {
      assert [arr[i]][..0] == [];
    }
  }

  /** The precondition every call of the search is made under. */
  predicate SearchState(arr: seq<Product>, start: nat, combo: seq<nat>, total: real)
  {
    && start <= |arr|
    && Increasing(combo)
    && Below(combo, start)
    && total == Cost(arr, combo)
  }

  /** Both branches of the loop body call `combine` in a reachable state. */
  lemma NextStates(arr: seq<Product>, i: nat, combo: seq<nat>, total: real)
    requires SearchState(arr, i, combo, total) && i < |arr|
    ensures SearchState(arr, i + 1, combo, total)
    ensures SearchState(arr, i + 1, combo + [i], total + arr[i].unitPrice)
  {
    CostExtend(arr, combo, i);
    var c := combo + [i];
    forall a, b | 0 <= a < b < |c|
      ensures c[a] < c[b]
    {
      if b == |combo| {
        assert c[a] == combo[a];
      } else {
        assert c[a] == combo[a] && c[b] == combo[b];
      }
    }
  }

  /**
    A combination `getCombinations` may report: `size` increasing positions
    into `arr` whose prices sum to at most `maxPrice`.
   */
  predicate Fits(arr: seq<Product>, size: int, maxPrice: real, r: seq<nat>)
  {
    |r| == size && Increasing(r) && InRange(|arr|, r) && Cost(arr, r) <= maxPrice
  }

  /** `r` continues `combo` with positions from `from` on. */
  predicate Extends(r: seq<nat>, combo: seq<nat>, from: nat)
  {
    && |combo| <= |r| && r[..|combo|] == combo
    && (forall j :: |combo| <= j < |r| ==> from <= r[j])
  }

  /** No combination is listed twice. */
  predicate Distinct(res: seq<seq<nat>>)
  {
    forall a, b :: 0 <= a < b < |res| ==> res[a] != res[b]
  }

  /**
    `combine(start, combo, totalPrice)`: a full combination is emitted when it
    is within the ceiling; otherwise the remaining positions are scanned.
   */
  function Search(arr: seq<Product>, size: int, maxPrice: real,
                  start: nat, combo: seq<nat>, total: real): (r: seq<seq<nat>>)
    requires start <= |arr|
    ensures |combo| > size ==> |r| == 0
    decreases |arr| - start, 1
  {
    if |combo| == size then
      if total <= maxPrice then [combo] else []
    else
      Scan(arr, size, maxPrice, start, combo, total)
  }

  /**
    The `for (let i = start; ...)` loop of `combine`, from position `i` on:
    a position is tried only when the running total with it stays within the
    ceiling.
   */
  function Scan(arr: seq<Product>, size: int, maxPrice: real,
                i: nat, combo: seq<nat>, total: real): (r: seq<seq<nat>>)
    requires i <= |arr|
    ensures |combo| >= size ==> |r| == 0
    decreases |arr| - i, 0
  {
    if i == |arr| then []
    else
      var newTotal := total + arr[i].unitPrice;
      (if newTotal <= maxPrice then Search(arr, size, maxPrice, i + 1, combo + [i], newTotal) else [])
      + Scan(arr, size, maxPrice, i + 1, combo, total)
  }

  /** One iteration of the loop: the results with position `i` taken, then those with it skipped. */
  lemma ScanStep(arr: seq<Product>, size: int, maxPrice: real, i: nat, combo: seq<nat>, total: real)
    requires i < |arr|
    ensures total + arr[i].unitPrice <= maxPrice ==>
              Scan(arr, size, maxPrice, i, combo, total)
              == Search(arr, size, maxPrice, i + 1, combo + [i], total + arr[i].unitPrice)
                 + Scan(arr, size, maxPrice, i + 1, combo, total)
    ensures total + arr[i].unitPrice > maxPrice ==>
              Scan(arr, size, maxPrice, i, combo, total) == Scan(arr, size, maxPrice, i + 1, combo, total)
  {
  }

  /** Every combination of the list is one `getCombinations` may report. */
  predicate AllFit(arr: seq<Product>, size: int, maxPrice: real, rs: seq<seq<nat>>)
  {
    forall r :: r in rs ==> Fits(arr, size, maxPrice, r)
  }

  /** Every combination of the list continues `combo` with positions from `from` on. */
  predicate AllExtend(rs: seq<seq<nat>>, combo: seq<nat>, from: nat)
  {
    forall r :: r in rs ==> Extends(r, combo, from)
  }

  /** Every combination of the list is longer than `combo`. */
  predicate AllLonger(rs: seq<seq<nat>>, combo: seq<nat>)
  {
    forall r :: r in rs ==> |combo| < |r|
  }

  /**
    Soundness of `combine`: from a reachable state, every result has `size`
    increasing positions inside the catalog and costs at most `maxPrice`,
    whatever the sign of the prices.
   */
  lemma {:induction false} SearchFits(arr: seq<Product>, size: int, maxPrice: real,
                                      start: nat, combo: seq<nat>, total: real)
    requires SearchState(arr, start, combo, total)
    ensures AllFit(arr, size, maxPrice, Search(arr, size, maxPrice, start, combo, total))
    decreases |arr| - start, 1
  {
    if |combo| != size {
      ScanFits(arr, size, maxPrice, start, combo, total);
    }
  }

  lemma {:induction false} ScanFits(arr: seq<Product>, size: int, maxPrice: real,
                                    i: nat, combo: seq<nat>, total: real)
    requires SearchState(arr, i, combo, total)
    ensures AllFit(arr, size, maxPrice, Scan(arr, size, maxPrice, i, combo, total))
    decreases |arr| - i, 0
  {
    if i < |arr| {
      ScanStep(arr, size, maxPrice, i, combo, total);
      NextStates(arr, i, combo, total);
      var newTotal := total + arr[i].unitPrice;
      ScanFits(arr, size, maxPrice, i + 1, combo, total);
      if newTotal <= maxPrice {
        SearchFits(arr, size, maxPrice, i + 1, combo + [i], newTotal);
        FitGroups(arr, size, maxPrice, Search(arr, size, maxPrice, i + 1, combo + [i], newTotal),
                  Scan(arr, size, maxPrice, i + 1, combo, total));
      }
    }
  }

  lemma FitGroups(arr: seq<Product>, size: int, maxPrice: real, taken: seq<seq<nat>>, skipped: seq<seq<nat>>)
    requires AllFit(arr, size, maxPrice, taken) && AllFit(arr, size, maxPrice, skipped)
    ensures AllFit(arr, size, maxPrice, taken + skipped)
  {
  }

  /** Every result of `combine` continues `combo` with positions from `start` on. */
  lemma {:induction false} SearchExtends(arr: seq<Product>, size: int, maxPrice: real,
                                         start: nat, combo: seq<nat>, total: real)
    requires start <= |arr|
    ensures AllExtend(Search(arr, size, maxPrice, start, combo, total), combo, start)
    decreases |arr| - start, 1
  {
    if |combo| == size {
      assert combo[..|combo|] == combo;
    } else {
      ScanExtends(arr, size, maxPrice, start, combo, total);
    }
  }

  /** Every result of the loop from `i` puts a position at least `i` right after `combo`. */
  lemma {:induction false} ScanExtends(arr: seq<Product>, size: int, maxPrice: real,
                                       i: nat, combo: seq<nat>, total: real)
    requires i <= |arr|
    ensures AllExtend(Scan(arr, size, maxPrice, i, combo, total), combo, i)
    ensures AllLonger(Scan(arr, size, maxPrice, i, combo, total), combo)
    decreases |arr| - i, 0
  {
    if i < |arr| {
      ScanStep(arr, size, maxPrice, i, combo, total);
      var newTotal := total + arr[i].unitPrice;
      var skipped := Scan(arr, size, maxPrice, i + 1, combo, total);
      ScanExtends(arr, size, maxPrice, i + 1, combo, total);
      ExtendsFromLater(skipped, combo, i);
      if newTotal <= maxPrice {
        var taken := Search(arr, size, maxPrice, i + 1, combo + [i], newTotal);
        SearchExtends(arr, size, maxPrice, i + 1, combo + [i], newTotal);
        TakenGroup(taken, combo, i);
        ExtendGroups(taken, skipped, combo, i);
      }
    }
  }

  /** A continuation from a later position is one from an earlier position. */
  lemma ExtendsFromLater(rs: seq<seq<nat>>, combo: seq<nat>, i: nat)
    requires AllExtend(rs, combo, i + 1)
    ensures AllExtend(rs, combo, i)
  {
    forall r | r in rs
      ensures Extends(r, combo, i)
    {
      assert Extends(r, combo, i + 1);
    }
  }

  lemma ExtendGroups(taken: seq<seq<nat>>, skipped: seq<seq<nat>>, combo: seq<nat>, i: nat)
    requires AllExtend(taken, combo, i) && AllLonger(taken, combo)
    requires AllExtend(skipped, combo, i) && AllLonger(skipped, combo)
    ensures AllExtend(taken + skipped, combo, i) && AllLonger(taken + skipped, combo)
  {
  }

  /** Every combination of the list holds position `i` right after `combo`. */
  predicate AllTakeAt(rs: seq<seq<nat>>, combo: seq<nat>, i: nat)
  {
    forall r :: r in rs ==> |combo| < |r| && r[|combo|] == i
  }

  /** The results found with position `i` taken all hold `i` right after `combo`. */
  lemma TakenGroup(taken: seq<seq<nat>>, combo: seq<nat>, i: nat)
    requires AllExtend(taken, combo + [i], i + 1)
    ensures AllExtend(taken, combo, i) && AllLonger(taken, combo)
    ensures AllTakeAt(taken, combo, i)
  {
    forall r | r in taken
      ensures Extends(r, combo, i) && |combo| < |r| && r[|combo|] == i
    {
      assert Extends(r, combo + [i], i + 1);
      assert r[..|combo| + 1] == combo + [i];
      assert r[..|combo|] == r[..|combo| + 1][..|combo|];
      assert r[|combo|] == r[..|combo| + 1][|combo|];
    }
  }

  /**
    Those found with position `i` taken hold `i` right after `combo`; those
    found with it skipped hold a later position there. So the two groups are
    disjoint and their concatenation lists nothing twice.
   */
  lemma DisjointGroups(all: seq<seq<nat>>, taken: seq<seq<nat>>, skipped: seq<seq<nat>>, combo: seq<nat>, i: nat)
    requires all == taken + skipped
    requires AllTakeAt(taken, combo, i)
    requires AllExtend(skipped, combo, i + 1) && AllLonger(skipped, combo)
    requires Distinct(taken) && Distinct(skipped)
    ensures Distinct(all)
  {
    forall a, b | 0 <= a < b < |all|
      ensures all[a] != all[b]
    {
      if a < |taken| && |taken| <= b {
        assert all[a] in taken && all[b] in skipped;
        assert Extends(all[b], combo, i + 1);
        assert all[a][|combo|] == i < all[b][|combo|];
      } else if |taken| <= a {
        assert all[a] == skipped[a - |taken|] && all[b] == skipped[b - |taken|];
      }
    }
  }

  /** `combine` never lists a combination twice. */
  lemma {:induction false} SearchListsOnce(arr: seq<Product>, size: int, maxPrice: real,
                                           start: nat, combo: seq<nat>, total: real)
    requires start <= |arr|
    ensures Distinct(Search(arr, size, maxPrice, start, combo, total))
    decreases |arr| - start, 1
  {
    if |combo| != size {
      ScanListsOnce(arr, size, maxPrice, start, combo, total);
    }
  }

  lemma {:induction false} ScanListsOnce(arr: seq<Product>, size: int, maxPrice: real,
                                         i: nat, combo: seq<nat>, total: real)
    requires i <= |arr|
    ensures Distinct(Scan(arr, size, maxPrice, i, combo, total))
    decreases |arr| - i, 0
  {
    if i < |arr| {
      var newTotal := total + arr[i].unitPrice;
      ScanListsOnce(arr, size, maxPrice, i + 1, combo, total);
      ScanExtends(arr, size, maxPrice, i + 1, combo, total);
      if newTotal <= maxPrice {
        var taken := Search(arr, size, maxPrice, i + 1, combo + [i], newTotal);
        SearchListsOnce(arr, size, maxPrice, i + 1, combo + [i], newTotal);
        SearchExtends(arr, size, maxPrice, i + 1, combo + [i], newTotal);
        TakenGroup(taken, combo, i);
        ScanStep(arr, size, maxPrice, i, combo, total);
        DisjointGroups(Scan(arr, size, maxPrice, i, combo, total), taken,
                       Scan(arr, size, maxPrice, i + 1, combo, total), combo, i);
      } else {
        ScanStep(arr, size, maxPrice, i, combo, total);
      }
    }
  }

  /** The position combinations `getCombinations` finds. */
  function IndexCombinations(arr: seq<Product>, size: int, maxPrice: real): (res: seq<seq<nat>>)
    ensures forall r :: r in res ==> Fits(arr, size, maxPrice, r)
  {
    assert Pick(arr, []) == [];
    SearchFits(arr, size, maxPrice, 0, [], 0.0);
    Search(arr, size, maxPrice, 0, [], 0.0)
  }

  /** The products of each combination, in the order found. */
  function PickAll(arr: seq<Product>, cs: seq<seq<nat>>): (r: seq<seq<Product>>)
    requires forall c :: c in cs ==> InRange(|arr|, c)
    ensures |r| == |cs|
    ensures forall k :: 0 <= k < |cs| ==> r[k] == Pick(arr, cs[k])
  {
    if |cs| == 0 then [] else [Pick(arr, cs[0])] + PickAll(arr, cs[1..])
  }

  /**
    `getCombinations(arr, size, maxPrice)`: every returned combination has
    exactly `size` products, drawn at distinct, increasing source positions,
    whose prices sum to at most `maxPrice`.
   */
  function GetCombinations(arr: seq<Product>, size: int, maxPrice: real): (res: seq<seq<Product>>)
    ensures |res| == |IndexCombinations(arr, size, maxPrice)|
    ensures forall k :: 0 <= k < |res| ==>
              var c := IndexCombinations(arr, size, maxPrice)[k];
              |res[k]| == size && PriceSum(res[k]) <= maxPrice
              && Increasing(c) && InRange(|arr|, c) && res[k] == Pick(arr, c)
  {
    var cs := IndexCombinations(arr, size, maxPrice);
    assert forall k :: 0 <= k < |cs| ==> Fits(arr, size, maxPrice, cs[k]) by {
      forall k | 0 <= k < |cs| ensures Fits(arr, size, maxPrice, cs[k]) {
        assert cs[k] in cs;
      }
    }
    PickAll(arr, cs)
  }

  /** No combination is listed twice. */
  lemma ListedOnce(arr: seq<Product>, size: int, maxPrice: real)
    ensures Distinct(IndexCombinations(arr, size, maxPrice))
  {
    assert Pick(arr, []) == [];
    SearchListsOnce(arr, size, maxPrice, 0, [], 0.0);
  }

  /**
    What is left of the ceiling after a combination, as shown in its row next
    to the combination's total, `PriceSum(combo)`.
   */
  function Difference(limit: real, combo: seq<Product>): (r: real)
    ensures r >= 0.0 <==> PriceSum(combo) <= limit
  {
    limit - PriceSum(combo)
  }

  /**
    Every combination listed leaves a non-negative difference to the ceiling
    the row is shown with, as long as that ceiling is not below the one the
    list was computed with.
   */
  lemma ListedDifferenceNonNegative(arr: seq<Product>, size: int, maxPrice: real, rowLimit: real, k: nat)
    requires k < |GetCombinations(arr, size, maxPrice)|
    requires maxPrice <= rowLimit
    ensures Difference(rowLimit, GetCombinations(arr, size, maxPrice)[k]) >= 0.0
  {
  }

  /**
    The rows keep the list computed with the old ceiling while they show the
    difference to the current one: lowering the ceiling below a listed total
    without recomputing shows a negative difference.
   */
  lemma LoweredCeilingShowsNegativeDifference()
    ensures var p := Product(1, [], 1, 5.0, None, 5.0);
            var listed := GetCombinations([p], 1, 10.0);
            |listed| == 1 && Difference(3.0, listed[0]) < 0.0
  {
  }
}

=== FILE: products.dfy ===
/**
  The inventory record shared by the store, the product table and the
  combinations table, plus the price arithmetic they all use.
  Prices are exact reals: the source holds them as JavaScript numbers.
 */
module Products {

  datatype Option<+T> = None | Some(value: T)

  /** A UTF-16 code unit: JavaScript strings are sequences of these. */
  newtype CodeUnit = x: int | 0 <= x < 0x1_0000

  /** A JavaScript string. */
  type JsString = seq<CodeUnit>

  /** One catalog entry. `importer` may be absent in the catalog data. */
  datatype Product = Product(
    id: int,
    name: JsString,
    stock: int,
    unitPrice: real,
    importer: Option<JsString>,
    stockForAllUnit: real)

  /** No entry has a negative unit price. */
  predicate NonNegativePrices(ps: seq<Product>)
  {
    forall j :: 0 <= j < |ps| ==> ps[j].unitPrice >= 0.0
  }

  /**
    Sum of unit prices, the `reduce((sum, p) => sum + p.unit_price, 0)` of the
    tables. With no negative price, the total is never negative.
   */
  function PriceSum(ps: seq<Product>): (r: real)
    ensures NonNegativePrices(ps) ==> r >= 0.0
  {
    if |ps| == 0 then 0.0 else PriceSum(ps[..|ps| - 1]) + ps[|ps| - 1].unitPrice
  }

  /** The total of a concatenation is the sum of the totals. */
  lemma {:induction false} PriceSumAppend(a: seq<Product>, b: seq<Product>)
    ensures PriceSum(a + b) == PriceSum(a) + PriceSum(b)
    decreases |b|
  {
    if |b| == 0 {
      assert a + b == a;
    } else {
      var b' := b[..|b| - 1];
      assert (a + b)[..|a + b| - 1] == a + b';
      PriceSumAppend(a, b');
    }
  }

  /** The entries whose id is not in `ids`, in their original order. */
  function WithoutIds(ps: seq<Product>, ids: set<int>): (r: seq<Product>)
    ensures |r| <= |ps|
  {
    if |ps| == 0 then []
    else if ps[0].id in ids then WithoutIds(ps[1..], ids)
    else [ps[0]] + WithoutIds(ps[1..], ids)
  }

  /** An entry survives the filter exactly when its id is not among `ids`. */
  lemma {:induction false} WithoutIdsMembers(ps: seq<Product>, ids: set<int>)
    ensures forall q :: q in WithoutIds(ps, ids) <==> q in ps && q.id !in ids
    decreases |ps|
  {
    if |ps| > 0 {
      WithoutIdsMembers(ps[1..], ids);
      assert forall q :: q in ps <==> q == ps[0] || q in ps[1..];
    }
  }

  /** `a` can be obtained from `b` by deleting elements. */
  predicate IsSubsequence<T(==)>(a: seq<T>, b: seq<T>)
    decreases |b|
  {
    |a| == 0 || (|b| > 0 && ((a[0] == b[0] && IsSubsequence(a[1..], b[1..])) || IsSubsequence(a, b[1..])))
  }

  /** The filter deletes entries and never reorders the ones it keeps. */
  lemma {:induction false} WithoutIdsSubsequence(ps: seq<Product>, ids: set<int>)
    ensures IsSubsequence(WithoutIds(ps, ids), ps)
    decreases |ps|
  {
    if |ps| > 0 {
      WithoutIdsSubsequence(ps[1..], ids);
      if ps[0].id !in ids {
        assert ([ps[0]] + WithoutIds(ps[1..], ids))[1..] == WithoutIds(ps[1..], ids);
      }
    }
  }

  /** Number of entries carrying the given id. */
  function Occurrences(ps: seq<Product>, id: int): nat
  {
    if |ps| == 0 then 0
    else (if ps[0].id == id then 1 else 0) + Occurrences(ps[1..], id)
  }

  /** Dropping one id removes exactly its occurrences. */
  lemma {:induction false} WithoutIdLength(ps: seq<Product>, id: int)
    ensures |WithoutIds(ps, {id})| == |ps| - Occurrences(ps, id)
    decreases |ps|
  {
    if |ps| > 0 {
      WithoutIdLength(ps[1..], id);
    }
  }

  /** Filtering by no id keeps everything. */
  lemma {:induction false} WithoutIdsNone(ps: seq<Product>)
    ensures WithoutIds(ps, {}) == ps
    decreases |ps|
  {
    if |ps| > 0 {
      WithoutIdsNone(ps[1..]);
      assert [ps[0]] + ps[1..] == ps;
    }
  }

  /** Filtering by a larger id set first removes nothing more than filtering by it directly. */
  lemma {:induction false} WithoutIdsAbsorb(ps: seq<Product>, small: set<int>, large: set<int>)
    requires small <= large
    ensures WithoutIds(WithoutIds(ps, small), large) == WithoutIds(ps, large)
    decreases |ps|
  {
    if |ps| > 0 {
      WithoutIdsAbsorb(ps[1..], small, large);
    }
  }
}

=== FILE: selection.dfy ===
/**
  Committing a chosen combination (`handleSelectCombination`): every product
  of the combination takes one unit from the first catalog entry with its id;
  an entry whose stock runs out is dropped from the catalog and recorded in
  the removal history, and the combination is appended to the selection
  history. The source mutates shared records in place; here every update is
  functional.
 */
module Selection {
  import opened Products
  import opened ProductStore

  /** `findIndex(p => p.id === id)`: the first position with the id, or -1. */
  function FindIndex(ps: seq<Product>, id: int): (r: int)
    ensures -1 <= r < |ps|
    ensures r == -1 <==> forall j :: 0 <= j < |ps| ==> ps[j].id != id
    ensures r >= 0 ==> ps[r].id == id && forall j :: 0 <= j < r ==> ps[j].id != id
  {
    if |ps| == 0 then -1
    else if ps[0].id == id then 0
    else
      var k := FindIndex(ps[1..], id);
      if k == -1 then -1 else k + 1
  }

  /** An entry with one unit taken. */
  function Decremented(p: Product): (d: Product)
    ensures d.stock == p.stock - 1 && d.id == p.id
    ensures d == p.(stock := p.stock - 1)
  {
    p.(stock := p.stock - 1)
  }

  /** The outcome of one product of the combination: the new catalog and the entry dropped, if any. */
  datatype StepResult = StepResult(products: seq<Product>, removed: Option<Product>)

  /** A removal as a zero- or one-element list. */
  function Removed(o: Option<Product>): (r: seq<Product>)
    ensures |r| == (if o.Some? then 1 else 0)
    ensures o.Some? ==> r == [o.value]
  {
    match o
    case None => []
    case Some(p) => [p]
  }

  /**
    One pass of the `forEach` body: locate the entry, take one unit, and
    splice the entry out when its stock is no longer positive.
   */
  function Step(ps: seq<Product>, c: Product): (r: StepResult)
    ensures |r.products| == |ps| - |Removed(r.removed)|
    ensures r.removed.Some? ==> r.removed.value.id == c.id && r.removed.value.stock <= 0
  {
    var k := FindIndex(ps, c.id);
    if k > -1 then
      var d := Decremented(ps[k]);
      if d.stock <= 0 then StepResult(ps[..k] + ps[k + 1..], Some(d))
      else StepResult(ps[k := d], None)
    else StepResult(ps, None)
  }

  /**
    Reference for one step, by recursion on the catalog: the first entry with
    the id loses one unit, and is dropped when its stock is no longer
    positive; every other entry stays where it is.
   */
  function DecrementFirst(ps: seq<Product>, id: int): (r: StepResult)
    ensures |r.products| == |ps| - |Removed(r.removed)|
    ensures WithoutIds(r.products, {id}) == WithoutIds(ps, {id})
    ensures r.removed.Some? ==> r.removed.value.id == id && r.removed.value.stock <= 0
    decreases |ps|
  {
    if |ps| == 0 then StepResult([], None)
    else if ps[0].id == id then
      var d := Decremented(ps[0]);
      if d.stock <= 0 then StepResult(ps[1..], Some(d))
      else
        assert ([d] + ps[1..])[1..] == ps[1..];
        StepResult([d] + ps[1..], None)
    else
      var rest := DecrementFirst(ps[1..], id);
      assert ([ps[0]] + rest.products)[1..] == rest.products;
      StepResult([ps[0]] + rest.products, rest.removed)
  }

  /** The index-and-splice step is the recursive reference; a missing id changes nothing. */
  lemma {:induction false} StepIsDecrementFirst(ps: seq<Product>, c: Product)
    ensures Step(ps, c) == DecrementFirst(ps, c.id)
    ensures (forall j :: 0 <= j < |ps| ==> ps[j].id != c.id) ==> Step(ps, c) == StepResult(ps, None)
    decreases |ps|
  {
    if |ps| > 0 {
      var tail := ps[1..];
      var d := Decremented(ps[0]);
      if ps[0].id == c.id {
        assert FindIndex(ps, c.id) == 0;
        assert ps[..0] + ps[1..] == tail;
        assert ps[0 := d] == [d] + tail;
      } else {
        StepIsDecrementFirst(tail, c);
        var k := FindIndex(tail, c.id);
        TailStep(ps, c, k);
      }
    }
  }

  /** Step on a catalog whose head does not match is the head followed by the step on the tail. */
  lemma TailStep(ps: seq<Product>, c: Product, k: int)
    requires |ps| > 0 && ps[0].id != c.id && k == FindIndex(ps[1..], c.id)
    ensures Step(ps, c) == StepResult([ps[0]] + Step(ps[1..], c).products, Step(ps[1..], c).removed)
  {
    if k == -1 {
      TailStepMissing(ps, c);
    } else if Decremented(ps[1..][k]).stock <= 0 {
      TailStepDropped(ps, c, k);
    } else {
      TailStepKept(ps, c, k);
    }
  }

  lemma TailStepMissing(ps: seq<Product>, c: Product)
    requires |ps| > 0 && ps[0].id != c.id && FindIndex(ps[1..], c.id) == -1
    ensures Step(ps, c) == StepResult([ps[0]] + Step(ps[1..], c).products, Step(ps[1..], c).removed)
  {
  }

  lemma TailStepDropped(ps: seq<Product>, c: Product, k: int)
    requires |ps| > 0 && ps[0].id != c.id && k == FindIndex(ps[1..], c.id) && k > -1
    requires Decremented(ps[1..][k]).stock <= 0
    ensures Step(ps, c) == StepResult([ps[0]] + Step(ps[1..], c).products, Step(ps[1..], c).removed)
  {
    var tail := ps[1..];
    assert FindIndex(ps, c.id) == k + 1;
    assert ps[k + 1] == tail[k];
    assert ps[..k + 1] + ps[k + 2..] == [ps[0]] + (tail[..k] + tail[k + 1..]);
  }

  lemma TailStepKept(ps: seq<Product>, c: Product, k: int)
    requires |ps| > 0 && ps[0].id != c.id && k == FindIndex(ps[1..], c.id) && k > -1
    requires Decremented(ps[1..][k]).stock > 0
    ensures Step(ps, c) == StepResult([ps[0]] + Step(ps[1..], c).products, Step(ps[1..], c).removed)
  {
    var tail := ps[1..];
    assert FindIndex(ps, c.id) == k + 1;
    assert ps[k + 1] == tail[k];
    assert ps[k + 1 := Decremented(tail[k])] == [ps[0]] + tail[k := Decremented(tail[k])];
  }

  /** The catalog and the entries dropped, in the order they ran out. */
  datatype Commit = Commit(products: seq<Product>, exhausted: seq<Product>)

  /** The ids a combination draws on. */
  function Ids(combo: seq<Product>): set<int>
  {
    set c | c in combo :: c.id
  }

  /** The whole `forEach` over the combination, one step per product, in order. */
  function DecrementAll(ps: seq<Product>, combo: seq<Product>): (r: Commit)
    ensures |r.products| == |ps| - |r.exhausted|
    decreases |combo|
  {
    if |combo| == 0 then Commit(ps, [])
    else
      var prev := DecrementAll(ps, combo[..|combo| - 1]);
      var st := Step(prev.products, combo[|combo| - 1]);
      StepIsDecrementFirst(prev.products, combo[|combo| - 1]);
      Commit(st.products, prev.exhausted + Removed(st.removed))
  }

  /**
    The commit leaves every entry whose id the combination does not name
    where it was, and drops only exhausted entries with a named id.
   */
  lemma {:induction false} DecrementAllKeepsOthers(ps: seq<Product>, combo: seq<Product>)
    ensures WithoutIds(DecrementAll(ps, combo).products, Ids(combo)) == WithoutIds(ps, Ids(combo))
    ensures forall e :: e in DecrementAll(ps, combo).exhausted ==> e.stock <= 0 && e.id in Ids(combo)
    decreases |combo|
  {
    if |combo| == 0 {
      assert Ids(combo) == {};
      WithoutIdsNone(ps);
    } else {
      var front := combo[..|combo| - 1];
      var c := combo[|combo| - 1];
      DecrementAllKeepsOthers(ps, front);
      KeepsOthersStep(ps, combo, front, c);
    }
  }

  lemma KeepsOthersStep(ps: seq<Product>, combo: seq<Product>, front: seq<Product>, c: Product)
    requires |combo| > 0 && front == combo[..|combo| - 1] && c == combo[|combo| - 1]
    requires WithoutIds(DecrementAll(ps, front).products, Ids(front)) == WithoutIds(ps, Ids(front))
    requires forall e :: e in DecrementAll(ps, front).exhausted ==> e.stock <= 0 && e.id in Ids(front)
    ensures WithoutIds(DecrementAll(ps, combo).products, Ids(combo)) == WithoutIds(ps, Ids(combo))
    ensures forall e :: e in DecrementAll(ps, combo).exhausted ==> e.stock <= 0 && e.id in Ids(combo)
  {
    var prev := DecrementAll(ps, front);
    var st := DecrementFirst(prev.products, c.id);
    IdsSnoc(combo);
    OthersKept(ps, prev.products, st.products, Ids(front), c.id);
    DecrementAllLast(ps, combo, front, c);
  }

  lemma IdsSnoc(combo: seq<Product>)
    requires |combo| > 0
    ensures Ids(combo) == Ids(combo[..|combo| - 1]) + {combo[|combo| - 1].id}
  {
    assert combo == combo[..|combo| - 1] + [combo[|combo| - 1]];
  }

  /** Entries outside the taken ids stay put across consecutive steps. */
  lemma OthersKept(ps: seq<Product>, mid: seq<Product>, last: seq<Product>, ids: set<int>, id: int)
    requires WithoutIds(mid, ids) == WithoutIds(ps, ids)
    requires WithoutIds(last, {id}) == WithoutIds(mid, {id})
    ensures WithoutIds(last, ids + {id}) == WithoutIds(ps, ids + {id})
  {
    WithoutIdsAbsorb(last, {id}, ids + {id});
    WithoutIdsAbsorb(mid, {id}, ids + {id});
    WithoutIdsAbsorb(mid, ids, ids + {id});
    WithoutIdsAbsorb(ps, ids, ids + {id});
  }

  /** A combination naming each id at most once. */
  predicate DistinctIds(combo: seq<Product>)
  {
    forall a, b :: 0 <= a < b < |combo| ==> combo[a].id != combo[b].id
  }

  /**
    Reference for the whole commit when the ids are distinct: scanning the
    catalog once, the first entry of every id in `ids` loses one unit and is
    dropped when it runs out; everything else is kept in order.
   */
  function Expected(ps: seq<Product>, ids: set<int>): Commit
    decreases |ps|
  {
    if |ps| == 0 then Commit([], [])
    else
      var rest := Expected(ps[1..], ids - {ps[0].id});
      if ps[0].id in ids then
        var d := Decremented(ps[0]);
        if d.stock <= 0 then Commit(rest.products, [d] + rest.exhausted)
        else Commit([d] + rest.products, rest.exhausted)
      else Commit([ps[0]] + rest.products, rest.exhausted)
  }

  /** Nothing to take leaves the catalog as it is. */
  lemma {:induction false} ExpectedNone(ps: seq<Product>)
    ensures Expected(ps, {}) == Commit(ps, [])
    decreases |ps|
  {
    if |ps| > 0 {
      assert {} - {ps[0].id} == {};
      ExpectedNone(ps[1..]);
      assert [ps[0]] + ps[1..] == ps;
    }
  }

  /** The step passes over a head entry with another id. */
  lemma DecrementFirstPast(x: Product, rest: seq<Product>, id: int)
    requires x.id != id
    ensures DecrementFirst([x] + rest, id)
            == StepResult([x] + DecrementFirst(rest, id).products, DecrementFirst(rest, id).removed)
  {
    assert ([x] + rest)[1..] == rest;
  }

  /** The step stops at a head entry with the id. */
  lemma DecrementFirstHere(x: Product, rest: seq<Product>, id: int)
    requires x.id == id
    ensures Decremented(x).stock <= 0 ==> DecrementFirst([x] + rest, id) == StepResult(rest, Some(Decremented(x)))
    ensures Decremented(x).stock > 0 ==> DecrementFirst([x] + rest, id) == StepResult([Decremented(x)] + rest, None)
  {
    assert ([x] + rest)[1..] == rest;
  }

  /** One more id on top of a partial commit is the commit with that id included. */
  lemma {:induction false} StepAfterExpected(ps: seq<Product>, ids: set<int>, id: int)
    requires id !in ids
    ensures DecrementFirst(Expected(ps, ids).products, id).products == Expected(ps, ids + {id}).products
    ensures multiset(Expected(ps, ids + {id}).exhausted)
            == multiset(Expected(ps, ids).exhausted)
               + multiset(Removed(DecrementFirst(Expected(ps, ids).products, id).removed))
    decreases |ps|, 1
  {
    if |ps| == 0 {
      assert Expected(ps, ids) == Commit([], []);
    } else if ps[0].id in ids {
      AfterExpectedTaken(ps, ids, id);
    } else if ps[0].id == id {
      AfterExpectedHere(ps, ids, id);
    } else {
      AfterExpectedPast(ps, ids, id);
    }
  }

  /** The head was already taken by the partial commit: the new id is found further on. */
  lemma {:induction false} AfterExpectedTaken(ps: seq<Product>, ids: set<int>, id: int)
    requires id !in ids && |ps| > 0 && ps[0].id in ids
    ensures DecrementFirst(Expected(ps, ids).products, id).products == Expected(ps, ids + {id}).products
    ensures multiset(Expected(ps, ids + {id}).exhausted)
            == multiset(Expected(ps, ids).exhausted)
               + multiset(Removed(DecrementFirst(Expected(ps, ids).products, id).removed))
    decreases |ps|, 0
  {
    var x := ps[0];
    var smaller := ids - {x.id};
    assert (ids + {id}) - {x.id} == smaller + {id};
    StepAfterExpected(ps[1..], smaller, id);
    if Decremented(x).stock > 0 {
      DecrementFirstPast(Decremented(x), Expected(ps[1..], smaller).products, id);
    }
  }

  /** The head carries the new id: the new step stops right there. */
  lemma AfterExpectedHere(ps: seq<Product>, ids: set<int>, id: int)
    requires id !in ids && |ps| > 0 && ps[0].id == id
    ensures DecrementFirst(Expected(ps, ids).products, id).products == Expected(ps, ids + {id}).products
    ensures multiset(Expected(ps, ids + {id}).exhausted)
            == multiset(Expected(ps, ids).exhausted)
               + multiset(Removed(DecrementFirst(Expected(ps, ids).products, id).removed))
  {
    var x := ps[0];
    assert (ids + {id}) - {x.id} == ids;
    assert ids - {x.id} == ids;
    DecrementFirstHere(x, Expected(ps[1..], ids).products, id);
  }

  /** The head carries neither a taken id nor the new one: it is passed over. */
  lemma {:induction false} AfterExpectedPast(ps: seq<Product>, ids: set<int>, id: int)
    requires id !in ids && |ps| > 0 && ps[0].id !in ids && ps[0].id != id
    ensures DecrementFirst(Expected(ps, ids).products, id).products == Expected(ps, ids + {id}).products
    ensures multiset(Expected(ps, ids + {id}).exhausted)
            == multiset(Expected(ps, ids).exhausted)
               + multiset(Removed(DecrementFirst(Expected(ps, ids).products, id).removed))
    decreases |ps|, 0
  {
    var x := ps[0];
    assert (ids + {id}) - {x.id} == ids + {id};
    assert ids - {x.id} == ids;
    StepAfterExpected(ps[1..], ids, id);
    DecrementFirstPast(x, Expected(ps[1..], ids).products, id);
  }

  /**
    For a combination with distinct ids, the step-by-step commit is the
    single-scan reference: the same catalog, and the same entries dropped.
   */
  lemma {:induction false} CommitIsExpected(ps: seq<Product>, combo: seq<Product>)
    requires DistinctIds(combo)
    ensures DecrementAll(ps, combo).products == Expected(ps, Ids(combo)).products
    ensures multiset(DecrementAll(ps, combo).exhausted) == multiset(Expected(ps, Ids(combo)).exhausted)
    decreases |combo|
  {
    if |combo| == 0 {
      assert Ids(combo) == {};
      ExpectedNone(ps);
    } else {
      var front := combo[..|combo| - 1];
      var c := combo[|combo| - 1];
      DistinctFront(combo);
      CommitIsExpected(ps, front);
      IdsSnoc(combo);
      var prev := DecrementAll(ps, front);
      StepIsDecrementFirst(prev.products, c);
      StepAfterExpected(ps, Ids(front), c.id);
      var st := DecrementFirst(prev.products, c.id);
      assert DecrementAll(ps, combo) == Commit(st.products, prev.exhausted + Removed(st.removed));
    }
  }

  /** Dropping the last product keeps the ids distinct, and the last id is new. */
  lemma DistinctFront(combo: seq<Product>)
    requires DistinctIds(combo) && |combo| > 0
    ensures DistinctIds(combo[..|combo| - 1])
    ensures combo[|combo| - 1].id !in Ids(combo[..|combo| - 1])
  {
    var front := combo[..|combo| - 1];
    var c := combo[|combo| - 1];
    forall a, b | 0 <= a < b < |front|
      ensures front[a].id != front[b].id
    {
      assert front[a] == combo[a] && front[b] == combo[b];
    }
    forall f | f in front
      ensures f.id != c.id
    {
      var a :| 0 <= a < |front| && front[a] == f;
      assert combo[a] == f;
    }
  }

  /** Every id occurs at most once in the catalog. */
  predicate UniqueIds(ps: seq<Product>)
  {
    forall a, b :: 0 <= a < b < |ps| ==> ps[a].id != ps[b].id
  }

  /**
    With unique catalog ids, an entry whose id is taken ends up exactly one of
    two ways: kept with one unit less, or dropped with its decremented record
    among the exhausted. No other entry with its id remains.
   */
  lemma {:induction false} ExpectedEntry(ps: seq<Product>, ids: set<int>, p: Product)
    requires UniqueIds(ps) && p in ps && p.id in ids
    ensures var e := Expected(ps, ids);
            (p.stock - 1 > 0 && Decremented(p) in e.products && Decremented(p) !in e.exhausted)
            || (p.stock - 1 <= 0 && Decremented(p) in e.exhausted && Decremented(p) !in e.products)
    ensures forall q :: q in Expected(ps, ids).products && q.id == p.id ==> q == Decremented(p)
    decreases |ps|
  {
    var tail := ps[1..];
    var x := ps[0].id;
    assert UniqueIds(tail) by {
      forall a, b | 0 <= a < b < |tail|
        ensures tail[a].id != tail[b].id
      {
        assert tail[a] == ps[a + 1] && tail[b] == ps[b + 1];
      }
    }
    assert forall q :: q in tail ==> q.id != x by {
      forall q | q in tail
        ensures q.id != x
      {
        var b :| 0 <= b < |tail| && tail[b] == q;
        assert ps[b + 1] == q;
      }
    }
    if ps[0] == p {
      IdAbsent(tail, ids - {x}, x);
    } else {
      assert p in tail;
      var rest := ids - {x};
      assert p.id != x;
      ExpectedEntry(tail, rest, p);
    }
  }

  /**
    With unique catalog ids and a combination naming each id once, every
    catalog entry the combination names is either kept with exactly one unit
    less, or dropped and listed among the exhausted with its stock at most 0.
   */
  lemma CommitEntry(ps: seq<Product>, combo: seq<Product>, p: Product)
    requires UniqueIds(ps) && DistinctIds(combo)
    requires p in ps && p.id in Ids(combo)
    ensures var r := DecrementAll(ps, combo);
            (p.stock > 1 && Decremented(p) in r.products && Decremented(p) !in r.exhausted)
            || (p.stock <= 1 && Decremented(p) in r.exhausted && Decremented(p) !in r.products)
    ensures forall q :: q in DecrementAll(ps, combo).products && q.id == p.id ==> q == Decremented(p)
  {
    CommitIsExpected(ps, combo);
    ExpectedEntry(ps, Ids(combo), p);
    var r := DecrementAll(ps, combo);
    var e := Expected(ps, Ids(combo));
    assert Decremented(p) in r.exhausted <==> Decremented(p) in e.exhausted by {
      assert Decremented(p) in multiset(r.exhausted) <==> Decremented(p) in multiset(e.exhausted);
    }
  }

  /** An id absent from the catalog is absent from the commit's catalog and exhausted list. */
  lemma {:induction false} IdAbsent(ps: seq<Product>, ids: set<int>, id: int)
    requires forall q :: q in ps ==> q.id != id
    ensures forall q :: q in Expected(ps, ids).products ==> q.id != id
    ensures forall q :: q in Expected(ps, ids).exhausted ==> q.id != id
    decreases |ps|
  {
    if |ps| > 0 {
      assert ps[0] in ps;
      assert forall q :: q in ps[1..] ==> q in ps;
      IdAbsent(ps[1..], ids - {ps[0].id}, id);
    }
  }

  /** The two histories kept next to the store. */
  datatype Session = Session(store: Store, selected: seq<seq<Product>>, deleted: seq<seq<Product>>)

  /** Each dropped entry as a group of its own. */
  function Singletons(es: seq<Product>): (r: seq<seq<Product>>)
    ensures |r| == |es|
    ensures forall k :: 0 <= k < |es| ==> r[k] == [es[k]]
  {
    if |es| == 0 then [] else [[es[0]]] + Singletons(es[1..])
  }

  lemma SingletonsRunOut(es: seq<Product>)
    requires forall e :: e in es ==> e.stock <= 0
    ensures forall k :: 0 <= k < |es| ==> |Singletons(es)[k]| == 1 && Singletons(es)[k][0].stock <= 0
  {
    forall k | 0 <= k < |es|
      ensures Singletons(es)[k][0].stock <= 0
    {
      assert es[k] in es;
    }
  }

  /**
    The removal history as the source leaves it: every
    `setProductsDelect([...productsDelecte, [...]])` of one commit starts
    from the history as it was before the commit, so only the last one takes
    effect.
   */
  function SelectAsWritten(s: Session, combo: seq<Product>): (r: Session)
    ensures r.selected == s.selected + [combo]
    ensures CountConsistent(r.store) && r.store.limit == s.store.limit
    ensures |r.deleted| == |s.deleted| + (if |r.store.products| == |s.store.products| then 0 else 1)
    ensures s.deleted <= r.deleted
    ensures r.store == Select(s, combo).store
    ensures var full := Select(s, combo).deleted;
            r.deleted == s.deleted + (if |full| == |s.deleted| then [] else [full[|full| - 1]])
  {
    var c := DecrementAll(s.store.products, combo);
    var deleted := if |c.exhausted| == 0 then s.deleted else s.deleted + [[c.exhausted[|c.exhausted| - 1]]];
    Session(SetProducts(s.store, c.products), s.selected + [combo], deleted)
  }

  /**
    The commit with every dropped entry recorded: the catalog shrinks by
    exactly as many entries as the removal history gains.
   */
  function Select(s: Session, combo: seq<Product>): (r: Session)
    ensures r.selected == s.selected + [combo]
    ensures CountConsistent(r.store) && r.store.limit == s.store.limit
    ensures |r.store.products| == |s.store.products| - (|r.deleted| - |s.deleted|)
    ensures s.deleted <= r.deleted
    ensures forall k :: |s.deleted| <= k < |r.deleted| ==> |r.deleted[k]| == 1 && r.deleted[k][0].stock <= 0
    ensures r.store.products == DecrementAll(s.store.products, combo).products
    ensures r.deleted == s.deleted + Singletons(DecrementAll(s.store.products, combo).exhausted)
  {
    var c := DecrementAll(s.store.products, combo);
    var added := Singletons(c.exhausted);
    DecrementAllKeepsOthers(s.store.products, combo);
    SingletonsRunOut(c.exhausted);
    Session(SetProducts(s.store, c.products), s.selected + [combo], s.deleted + added)
  }

  /** A one-entry group is among the singletons exactly when its entry is among the originals. */
  lemma SingletonsMembers(es: seq<Product>, x: Product)
    ensures [x] in Singletons(es) <==> x in es
  {
    if x in es {
      var k :| 0 <= k < |es| && es[k] == x;
      assert Singletons(es)[k] == [x];
    }
    if [x] in Singletons(es) {
      var k :| 0 <= k < |Singletons(es)| && Singletons(es)[k] == [x];
      assert es[k] == x;
    }
  }

  /**
    The commit as the session sees it: with unique catalog ids and a
    combination naming each id once, every named entry either stays in the
    catalog with exactly one unit less, or leaves it and is recorded as a
    group of its own in the removal history.
   */
  lemma SelectEntry(s: Session, combo: seq<Product>, p: Product)
    requires UniqueIds(s.store.products) && DistinctIds(combo)
    requires p in s.store.products && p.id in Ids(combo)
    ensures var r := Select(s, combo);
            var added := r.deleted[|s.deleted|..];
            (p.stock > 1 && Decremented(p) in r.store.products && [Decremented(p)] !in added)
            || (p.stock <= 1 && [Decremented(p)] in added && Decremented(p) !in r.store.products)
    ensures forall q :: q in Select(s, combo).store.products && q.id == p.id ==> q == Decremented(p)
  {
    var c := DecrementAll(s.store.products, combo);
    var r := Select(s, combo);
    CommitEntry(s.store.products, combo, p);
    assert r.deleted[|s.deleted|..] == Singletons(c.exhausted);
    SingletonsMembers(c.exhausted, Decremented(p));
  }

  /**
    With a repeated id the commit takes the unit from the first catalog entry
    carrying it, whichever entry the combination holds.
   */
  lemma RepeatedIdDecrementsFirst()
    ensures var a := Product(1, [97], 5, 1.0, None, 5.0);
            var b := Product(1, [98], 5, 2.0, None, 10.0);
            var r := DecrementAll([a, b], [b]);
            r.products == [Decremented(a), b] && Decremented(b) !in r.products
  {
    var a := Product(1, [97], 5, 1.0, None, 5.0);
    var b := Product(1, [98], 5, 2.0, None, 10.0);
    assert FindIndex([a, b], 1) == 0;
    assert [b][..0] == [];
  }

  /**
    Two products with one unit each, committed together: both leave the
    catalog, but the source's removal history gains only the second.
   */
  lemma StaleHistoryLosesARemoval()
    ensures var p1 := Product(1, [97], 1, 1.0, None, 1.0);
            var p2 := Product(2, [98], 1, 1.0, None, 1.0);
            var s := Session(Initial([p1, p2]), [], []);
            SelectAsWritten(s, [p1, p2]).deleted == [[Decremented(p2)]]
            && Select(s, [p1, p2]).deleted == [[Decremented(p1)], [Decremented(p2)]]
            && SelectAsWritten(s, [p1, p2]).store.products == []
  {
    var p1 := Product(1, [97], 1, 1.0, None, 1.0);
    var p2 := Product(2, [98], 1, 1.0, None, 1.0);
    BothRunOut(p1, p2);
    var s := Session(Initial([p1, p2]), [], []);
    AsWrittenKeepsLast(s, [p1, p2], Decremented(p1), Decremented(p2));
    SelectKeepsBoth(s, [p1, p2], Decremented(p1), Decremented(p2));
  }

  lemma AsWrittenKeepsLast(s: Session, combo: seq<Product>, d1: Product, d2: Product)
    requires s.deleted == []
    requires DecrementAll(s.store.products, combo) == Commit([], [d1, d2])
    ensures SelectAsWritten(s, combo).deleted == [[d2]]
    ensures SelectAsWritten(s, combo).store.products == []
  {
  }

  lemma SelectKeepsBoth(s: Session, combo: seq<Product>, d1: Product, d2: Product)
    requires s.deleted == []
    requires DecrementAll(s.store.products, combo) == Commit([], [d1, d2])
    ensures Select(s, combo).deleted == [[d1], [d2]]
  {
    assert [d1, d2][1..] == [d2];
    assert Singletons([d1, d2]) == [[d1]] + Singletons([d2]);
  }

  /** The last product of the combination is one more step after the rest. */
  lemma DecrementAllLast(ps: seq<Product>, combo: seq<Product>, front: seq<Product>, c: Product)
    requires |combo| > 0 && front == combo[..|combo| - 1] && c == combo[|combo| - 1]
    ensures DecrementAll(ps, combo)
            == Commit(DecrementFirst(DecrementAll(ps, front).products, c.id).products,
                      DecrementAll(ps, front).exhausted + Removed(DecrementFirst(DecrementAll(ps, front).products, c.id).removed))
  {
    StepIsDecrementFirst(DecrementAll(ps, front).products, c);
  }

  /** Committing two single-unit products with different ids drops both, in order. */
  lemma BothRunOut(p1: Product, p2: Product)
    requires p1.id != p2.id && p1.stock == 1 && p2.stock == 1
    ensures DecrementAll([p1, p2], [p1, p2]) == Commit([], [Decremented(p1), Decremented(p2)])
  {
    FirstRunsOut(p1, p2);
    SecondRunsOut(p1, p2);
  }

  lemma FirstRunsOut(p1: Product, p2: Product)
    requires p1.stock == 1
    ensures DecrementAll([p1, p2], [p1]) == Commit([p2], [Decremented(p1)])
  {
    var ps := [p1, p2];
    assert DecrementAll(ps, []) == Commit(ps, []);
    assert [p1][..0] == [];
    DecrementAllLast(ps, [p1], [], p1);
    assert [p1] + [p2] == ps;
    DecrementFirstHere(p1, [p2], p1.id);
  }

  lemma SecondRunsOut(p1: Product, p2: Product)
    requires p1.id != p2.id && p2.stock == 1
    requires DecrementAll([p1, p2], [p1]) == Commit([p2], [Decremented(p1)])
    ensures DecrementAll([p1, p2], [p1, p2]) == Commit([], [Decremented(p1), Decremented(p2)])
  {
    assert [p1, p2][..1] == [p1];
    DecrementAllLast([p1, p2], [p1, p2], [p1], p2);
    assert [p2] + [] == [p2];
    DecrementFirstHere(p2, [], p2.id);
  }
}

=== FILE: sorting.dfy ===
/**
  The product table's column sort (`handleSort`): clicking a column header
  picks the direction, sorts a copy of the catalog with a comparator on that
  column, and stores the sorted copy.
 */
module ProductSort {
  import opened Products
  import opened ProductStore

  /** The sortable columns of the product table. */
  datatype Column = Id | Name | Stock | UnitPrice | Importer | StockForAllUnit

  datatype Direction = Asc | Desc

  /** A column's raw value; `Missing` is the source's `null`/`undefined`. */
  datatype Value = Number(n: real) | Str(s: JsString) | Missing

  /** A value as the comparator sees it. */
  datatype Key = Num(n: real) | Text(t: JsString)

  predicate Numeric(col: Column)
  {
    col == Id || col == Stock || col == UnitPrice || col == StockForAllUnit
  }

  function RawValue(p: Product, col: Column): (v: Value)
    ensures Numeric(col) <==> v.Number?
  {
    match col
    case Id => Number(p.id as real)
    case Name => Str(p.name)
    case Stock => Number(p.stock as real)
    case UnitPrice => Number(p.unitPrice)
    case Importer => (match p.importer case None => Missing case Some(s) => Str(s))
    case StockForAllUnit => Number(p.stockForAllUnit)
  }

  /** `A` to `Z` as code units. */
  predicate AsciiCapital(c: CodeUnit)
  {
    65 <= c <= 90
  }

  /** `toLowerCase` on the ASCII letters. */
  function Lower(s: JsString): (r: JsString)
    ensures |r| == |s|
    ensures forall j :: 0 <= j < |s| ==> (AsciiCapital(s[j]) ==> r[j] == s[j] + 32)
    ensures forall j :: 0 <= j < |s| ==> (!AsciiCapital(s[j]) ==> r[j] == s[j])
    ensures forall j :: 0 <= j < |r| ==> !AsciiCapital(r[j])
  {
    seq(|s|, j requires 0 <= j < |s| => if AsciiCapital(s[j]) then s[j] + 32 else s[j])
  }

  /** Lower-casing twice is lower-casing once. */
  lemma LowerIdempotent(s: JsString)
    ensures Lower(Lower(s)) == Lower(s)
  {
  }

  /** A missing value becomes the empty string; strings are lower-cased. */
  function Normalise(v: Value): (k: Key)
    ensures v.Number? <==> k.Num?
  {
    match v
    case Number(n) => Num(n)
    case Str(s) => Text(Lower(s))
    case Missing => Text([])
  }

  function KeyOf(p: Product, col: Column): (k: Key)
    ensures Numeric(col) <==> k.Num?
  {
    Normalise(RawValue(p, col))
  }

  /** JavaScript's `<` on strings: code unit by code unit, a proper prefix first. */
  predicate StrLess(a: JsString, b: JsString)
    decreases |a|
  {
    |b| > 0 && (|a| == 0 || a[0] < b[0] || (a[0] == b[0] && StrLess(a[1..], b[1..])))
  }

  lemma {:induction false} StrLessIrreflexive(a: JsString)
    ensures !StrLess(a, a)
    decreases |a|
  {
    if |a| > 0 {
      StrLessIrreflexive(a[1..]);
    }
  }

  /** Of two different strings exactly one is less. */
  lemma {:induction false} StrLessTotal(a: JsString, b: JsString)
    ensures a != b ==> (StrLess(a, b) <==> !StrLess(b, a))
    ensures a == b ==> !StrLess(a, b)
    decreases |a|
  {
    if a == b {
      StrLessIrreflexive(a);
    } else if |a| > 0 && |b| > 0 {
      StrLessTotal(a[1..], b[1..]);
      if a[0] == b[0] {
        assert a[1..] != b[1..] by {
          assert a == [a[0]] + a[1..] && b == [b[0]] + b[1..];
        }
      }
    }
  }

  lemma {:induction false} StrLessTransitive(a: JsString, b: JsString, c: JsString)
    requires StrLess(a, b) && StrLess(b, c)
    ensures StrLess(a, c)
    decreases |a|
  {
    if |a| > 0 && a[0] == b[0] && b[0] == c[0] {
      StrLessTransitive(a[1..], b[1..], c[1..]);
    }
  }

  /** Keys of the same column are of the same kind. */
  predicate Comparable(a: Key, b: Key)
  {
    a.Num? == b.Num?
  }

  /** Strict order on comparable keys: numbers by value, strings by `StrLess`. */
  predicate KeyLess(a: Key, b: Key)
    requires Comparable(a, b)
  {
    if a.Num? then a.n < b.n else StrLess(a.t, b.t)
  }

  /** No two keys are each less than the other. */
  lemma KeyLessAsymmetric(a: Key, b: Key)
    requires Comparable(a, b)
    ensures !(KeyLess(a, b) && KeyLess(b, a))
  {
    if a.Text? {
      StrLessTotal(a.t, b.t);
    }
  }

  /**
    The comparator passed to `sort`, on normalised keys: negative when `a`
    goes first in the chosen direction, positive when `b` does.
   */
  function Compare(dir: Direction, a: Key, b: Key): (r: int)
    requires Comparable(a, b)
    ensures r < 0 <==> (if dir == Asc then KeyLess(a, b) else KeyLess(b, a))
    ensures r > 0 <==> (if dir == Asc then KeyLess(b, a) else KeyLess(a, b))
  {
    KeyLessAsymmetric(a, b);
    if KeyLess(a, b) then (if dir == Asc then -1 else 1)
    else if KeyLess(b, a) then (if dir == Asc then 1 else -1)
    else 0
  }

  /** The comparator is antisymmetric, answers only -1, 0 or 1, and answers 0 exactly on equal keys. */
  lemma CompareLaws(dir: Direction, a: Key, b: Key)
    requires Comparable(a, b)
    ensures Compare(dir, a, b) == -Compare(dir, b, a)
    ensures Compare(dir, a, b) in {-1, 0, 1}
    ensures Compare(dir, a, b) == 0 <==> a == b
  {
    if a.Text? {
      StrLessTotal(a.t, b.t);
    }
  }

  /** Descending is ascending with the operands swapped. */
  lemma DescendingReversesAscending(a: Key, b: Key)
    requires Comparable(a, b)
    ensures Compare(Desc, a, b) == Compare(Asc, b, a)
  {
    CompareLaws(Asc, a, b);
    if a.Text? {
      StrLessTotal(a.t, b.t);
    }
  }

  /** The comparator is transitive, so it orders the keys totally. */
  lemma CompareTransitive(dir: Direction, a: Key, b: Key, c: Key)
    requires Comparable(a, b) && Comparable(b, c)
    requires Compare(dir, a, b) <= 0 && Compare(dir, b, c) <= 0
    ensures Compare(dir, a, c) <= 0
  {
    CompareLaws(dir, a, b);
    CompareLaws(dir, b, c);
    CompareLaws(dir, a, c);
    if a.Text? {
      StrLessTotal(a.t, b.t);
      StrLessTotal(b.t, c.t);
      StrLessTotal(a.t, c.t);
      if StrLess(a.t, b.t) && StrLess(b.t, c.t) {
        StrLessTransitive(a.t, b.t, c.t);
      } else if StrLess(b.t, a.t) && StrLess(c.t, b.t) {
        StrLessTransitive(c.t, b.t, a.t);
      }
    }
  }

  /** Comparing two products on a column. */
  function CompareOn(col: Column, dir: Direction, p: Product, q: Product): int
  {
    Compare(dir, KeyOf(p, col), KeyOf(q, col))
  }

  /** A missing importer sorts exactly like an empty one. */
  lemma MissingImporterIsEmpty(dir: Direction, p: Product, q: Product)
    requires p.importer == None
    ensures CompareOn(Importer, dir, p, q) == CompareOn(Importer, dir, p.(importer := Some([])), q)
    ensures CompareOn(Importer, dir, q, p) == CompareOn(Importer, dir, q, p.(importer := Some([])))
  {
    assert Lower([]) == [];
  }

  /** Adjacent entries are in comparator order. */
  predicate SortedOn(col: Column, dir: Direction, ps: seq<Product>)
  {
    forall j :: 0 <= j < |ps| - 1 ==> CompareOn(col, dir, ps[j], ps[j + 1]) <= 0
  }

  /** Puts `x` before the first entry it does not follow. */
  function Insert(col: Column, dir: Direction, x: Product, s: seq<Product>): (r: seq<Product>)
    ensures |r| == |s| + 1
    ensures multiset(r) == multiset(s) + multiset{x}
    ensures r[0] == x || (|s| > 0 && r[0] == s[0])
  {
    if |s| == 0 || CompareOn(col, dir, x, s[0]) <= 0 then [x] + s
    else
      assert s == [s[0]] + s[1..];
      [s[0]] + Insert(col, dir, x, s[1..])
  }

  /** Inserting into a sorted sequence keeps it sorted. */
  lemma {:induction false} InsertKeepsOrder(col: Column, dir: Direction, x: Product, s: seq<Product>)
    requires SortedOn(col, dir, s)
    ensures SortedOn(col, dir, Insert(col, dir, x, s))
    decreases |s|
  {
    if |s| > 0 && CompareOn(col, dir, x, s[0]) > 0 {
      SortedTail(col, dir, s);
      InsertKeepsOrder(col, dir, x, s[1..]);
      HeadBeforeInserted(col, dir, x, s);
      SortedCons(col, dir, s[0], Insert(col, dir, x, s[1..]));
    }
  }

  /** A suffix of a sorted sequence is sorted. */
  lemma SortedTail(col: Column, dir: Direction, s: seq<Product>)
    requires SortedOn(col, dir, s) && |s| > 0
    ensures SortedOn(col, dir, s[1..])
  {
    forall j | 0 <= j < |s[1..]| - 1
      ensures CompareOn(col, dir, s[1..][j], s[1..][j + 1]) <= 0
    {
      assert s[1..][j] == s[j + 1] && s[1..][j + 1] == s[j + 2];
    }
  }

  /** When `x` goes past the head, the head still precedes whatever comes next. */
  lemma HeadBeforeInserted(col: Column, dir: Direction, x: Product, s: seq<Product>)
    requires SortedOn(col, dir, s) && |s| > 0 && CompareOn(col, dir, x, s[0]) > 0
    ensures CompareOn(col, dir, s[0], Insert(col, dir, x, s[1..])[0]) <= 0
  {
    CompareLaws(dir, KeyOf(x, col), KeyOf(s[0], col));
    var rest := Insert(col, dir, x, s[1..]);
    if rest[0] != x {
      assert rest[0] == s[1];
    }
  }

  /** A sorted sequence stays sorted under a head that precedes its first entry. */
  lemma SortedCons(col: Column, dir: Direction, h: Product, rest: seq<Product>)
    requires SortedOn(col, dir, rest)
    requires |rest| > 0 ==> CompareOn(col, dir, h, rest[0]) <= 0
    ensures SortedOn(col, dir, [h] + rest)
  {
    var r := [h] + rest;
    forall j | 0 <= j < |r| - 1
      ensures CompareOn(col, dir, r[j], r[j + 1]) <= 0
    {
      if j > 0 {
        assert r[j] == rest[j - 1] && r[j + 1] == rest[j];
      }
    }
  }

  /** The copy-and-sort: a sort of the copy, one insertion per entry. */
  function Sort(col: Column, dir: Direction, ps: seq<Product>): (r: seq<Product>)
    ensures |r| == |ps|
    ensures multiset(r) == multiset(ps)
    decreases |ps|
  {
    if |ps| == 0 then []
    else
      assert ps == [ps[0]] + ps[1..];
      Insert(col, dir, ps[0], Sort(col, dir, ps[1..]))
  }

  /** The sorted copy is in comparator order. */
  lemma {:induction false} SortIsSorted(col: Column, dir: Direction, ps: seq<Product>)
    ensures SortedOn(col, dir, Sort(col, dir, ps))
    decreases |ps|
  {
    if |ps| > 0 {
      SortIsSorted(col, dir, ps[1..]);
      InsertKeepsOrder(col, dir, ps[0], Sort(col, dir, ps[1..]));
    }
  }

  /** The header state: which column was clicked last, and in which direction. */
  datatype SortView = SortView(column: Option<Column>, direction: Direction)

  /** The view before any click. */
  const InitialView := SortView(None, Asc)

  /** Clicking the current column flips its direction; any other column starts ascending. */
  function NextDirection(v: SortView, col: Column): (d: Direction)
    ensures v.column == Some(col) ==> d != v.direction
    ensures v.column != Some(col) ==> d == Asc
  {
    if v.column == Some(col) then (if v.direction == Asc then Desc else Asc) else Asc
  }

  /** `handleSort(column)`: the new header state and the store holding the sorted copy. */
  function HandleSort(v: SortView, s: Store, col: Column): (r: (SortView, Store))
    ensures r.0.column == Some(col) && r.0.direction == NextDirection(v, col)
    ensures multiset(r.1.products) == multiset(s.products)
    ensures SortedOn(col, r.0.direction, r.1.products)
    ensures CountConsistent(r.1) && r.1.limit == s.limit
  {
    var dir := NextDirection(v, col);
    SortIsSorted(col, dir, s.products);
    (SortView(Some(col), dir), SetProducts(s, Sort(col, dir, s.products)))
  }

  /** Two clicks on one column bring its direction back. */
  lemma ClickTwiceRestores(v: SortView, s: Store, col: Column)
    requires v.column == Some(col)
    ensures var (v1, s1) := HandleSort(v, s, col);
            HandleSort(v1, s1, col).0 == v
  {
  }

  /** The first click on a column, or a click on another one, sorts ascending. */
  lemma NewColumnSortsAscending(v: SortView, s: Store, col: Column)
    requires v.column != Some(col)
    ensures HandleSort(v, s, col).0.direction == Asc
  {
  }

  /** The very first click, on any column, selects that column ascending. */
  lemma FirstClickSortsAscending(s: Store, col: Column)
    ensures HandleSort(InitialView, s, col).0 == SortView(Some(col), Asc)
  {
  }

  /** On a numeric column, ascending gives non-decreasing values and descending non-increasing ones. */
  lemma NumericColumnOrder(col: Column, dir: Direction, ps: seq<Product>)
    requires Numeric(col)
    ensures var r := Sort(col, dir, ps);
            forall j :: 0 <= j < |r| - 1 ==>
              (dir == Asc ==> KeyOf(r[j], col).n <= KeyOf(r[j + 1], col).n)
              && (dir == Desc ==> KeyOf(r[j], col).n >= KeyOf(r[j + 1], col).n)
  {
    SortIsSorted(col, dir, ps);
  }

  /**
    On a string column, ascending puts no lower-cased value after a smaller one,
    and descending no lower-cased value after a larger one.
   */
  lemma TextColumnOrder(col: Column, dir: Direction, ps: seq<Product>)
    requires !Numeric(col)
    ensures var r := Sort(col, dir, ps);
            forall j :: 0 <= j < |r| - 1 ==>
              (dir == Asc ==> !StrLess(KeyOf(r[j + 1], col).t, KeyOf(r[j], col).t))
              && (dir == Desc ==> !StrLess(KeyOf(r[j], col).t, KeyOf(r[j + 1], col).t))
  {
    var r := Sort(col, dir, ps);
    SortIsSorted(col, dir, ps);
    forall j | 0 <= j < |r| - 1
      ensures dir == Asc ==> !StrLess(KeyOf(r[j + 1], col).t, KeyOf(r[j], col).t)
      ensures dir == Desc ==> !StrLess(KeyOf(r[j], col).t, KeyOf(r[j + 1], col).t)
    {
      StrLessTotal(KeyOf(r[j], col).t, KeyOf(r[j + 1], col).t);
    }
  }
}

=== FILE: store.dfy ===
/**
  The product store: the catalog, the price ceiling (`limit`) and the
  `itemCount` counter, with the store's transitions as state-to-state
  functions. The counter is kept by hand in the source, so whether it
  matches the catalog length is a property of the transitions, not of
  the state.
 */
module ProductStore {
  import opened Products

  datatype Store = Store(products: seq<Product>, limit: real, itemCount: int)

  /** The ceiling the store starts with. */
  const InitialLimit: real := 13.0

  /** The bookkeeping invariant the counter is meant to keep. */
  predicate CountConsistent(s: Store)
  {
    s.itemCount == |s.products|
  }

  /** The state the store is created with, from the loaded catalog. */
  function Initial(catalog: seq<Product>): (s: Store)
    ensures s.products == catalog && s.limit == InitialLimit
    ensures CountConsistent(s)
  {
    Store(catalog, InitialLimit, |catalog|)
  }

  /** Appends a product and counts it. */
  function AddProduct(s: Store, p: Product): (r: Store)
    ensures |r.products| == |s.products| + 1
    ensures r.products[..|s.products|] == s.products && r.products[|s.products|] == p
    ensures r.itemCount == s.itemCount + 1 && r.limit == s.limit
  {
    s.(products := s.products + [p], itemCount := s.itemCount + 1)
  }

  /** Drops every entry with the id; the counter goes down by one however many matched. */
  function RemoveProduct(s: Store, id: int): (r: Store)
    ensures forall q :: q in r.products <==> q in s.products && q.id != id
    ensures IsSubsequence(r.products, s.products)
    ensures |r.products| == |s.products| - Occurrences(s.products, id)
    ensures r.itemCount == s.itemCount - 1 && r.limit == s.limit
  {
    WithoutIdLength(s.products, id);
    WithoutIdsMembers(s.products, {id});
    WithoutIdsSubsequence(s.products, {id});
    s.(products := WithoutIds(s.products, {id}), itemCount := s.itemCount - 1)
  }

  /** Replaces every entry whose id matches the updated product. */
  function UpdateProduct(s: Store, u: Product): (r: Store)
    ensures |r.products| == |s.products|
    ensures forall j :: 0 <= j < |r.products| ==> (r.products[j].id == u.id <==> s.products[j].id == u.id)
    ensures forall j :: 0 <= j < |r.products| && s.products[j].id == u.id ==> r.products[j] == u
    ensures WithoutIds(r.products, {u.id}) == WithoutIds(s.products, {u.id})
    ensures r.itemCount == s.itemCount && r.limit == s.limit
  {
    var ps := Replace(s.products, u);
    ReplaceKeepsOthers(s.products, u);
    s.(products := ps)
  }

  /** The `map` of `updateProduct`. */
  function Replace(ps: seq<Product>, u: Product): (r: seq<Product>)
    ensures |r| == |ps|
    ensures forall j :: 0 <= j < |ps| ==> r[j] == (if ps[j].id == u.id then u else ps[j])
  {
    if |ps| == 0 then [] else [if ps[0].id == u.id then u else ps[0]] + Replace(ps[1..], u)
  }

  lemma {:induction false} ReplaceKeepsOthers(ps: seq<Product>, u: Product)
    ensures WithoutIds(Replace(ps, u), {u.id}) == WithoutIds(ps, {u.id})
    decreases |ps|
  {
    if |ps| > 0 {
      ReplaceKeepsOthers(ps[1..], u);
      assert Replace(ps, u)[1..] == Replace(ps[1..], u);
    }
  }

  /** Replaces the catalog and recounts it. */
  function SetProducts(s: Store, ps: seq<Product>): (r: Store)
    ensures r.products == ps && r.limit == s.limit
    ensures CountConsistent(r)
  {
    s.(products := ps, itemCount := |ps|)
  }

  /** Changes only the ceiling. */
  function SetLimit(s: Store, limit: real): (r: Store)
    ensures r.limit == limit
    ensures r.products == s.products && r.itemCount == s.itemCount
  {
    s.(limit := limit)
  }

  /** Changes only the counter. */
  function SetItemCount(s: Store, count: int): (r: Store)
    ensures r.itemCount == count
    ensures r.products == s.products && r.limit == s.limit
  {
    s.(itemCount := count)
  }

  /** Applying the same update twice is the same as applying it once. */
  lemma {:induction false} UpdateProductIdempotent(s: Store, u: Product)
    ensures UpdateProduct(UpdateProduct(s, u), u) == UpdateProduct(s, u)
  {
    var once := UpdateProduct(s, u).products;
    var twice := UpdateProduct(UpdateProduct(s, u), u).products;
    assert |once| == |twice|;
    forall j | 0 <= j < |once|
      ensures once[j] == twice[j]
    {
    }
  }

  /** The store's transitions, as the actions a caller can send. */
  datatype Action =
    | Add(product: Product)
    | Remove(id: int)
    | Update(product: Product)
    | SetAll(products: seq<Product>)
    | ChangeLimit(limit: real)
    | ChangeCount(count: int)

  function Apply(s: Store, a: Action): Store
  {
    match a
    case Add(p) => AddProduct(s, p)
    case Remove(id) => RemoveProduct(s, id)
    case Update(p) => UpdateProduct(s, p)
    case SetAll(ps) => SetProducts(s, ps)
    case ChangeLimit(l) => SetLimit(s, l)
    case ChangeCount(c) => SetItemCount(s, c)
  }

  /** When an action keeps the counter equal to the catalog length. */
  predicate KeepsCount(s: Store, a: Action)
  {
    match a
    case Remove(id) => Occurrences(s.products, id) == 1
    case ChangeCount(c) => c == |s.products|
    case _ => true
  }

  /**
    From a consistent state, an action leaves the counter consistent exactly
    when it keeps the count: adding, updating, replacing and changing the limit
    always do; removing does only when the id occurs once; setting the counter
    does only when it is set to the length.
   */
  lemma ActionKeepsConsistency(s: Store, a: Action)
    requires CountConsistent(s)
    ensures CountConsistent(Apply(s, a)) <==> KeepsCount(s, a)
  {
  }

  function Run(s: Store, actions: seq<Action>): Store
    decreases |actions|
  {
    if |actions| == 0 then s else Run(Apply(s, actions[0]), actions[1..])
  }

  /** Every action along the way keeps the count. */
  predicate CountKeptAlong(s: Store, actions: seq<Action>)
    decreases |actions|
  {
    |actions| == 0 || (KeepsCount(s, actions[0]) && CountKeptAlong(Apply(s, actions[0]), actions[1..]))
  }

  /** A run of count-keeping actions from any consistent state ends consistent. */
  lemma {:induction false} RunKeepsConsistency(s: Store, actions: seq<Action>)
    requires CountConsistent(s)
    requires CountKeptAlong(s, actions)
    ensures CountConsistent(Run(s, actions))
    decreases |actions|
  {
    if |actions| > 0 {
      ActionKeepsConsistency(s, actions[0]);
      RunKeepsConsistency(Apply(s, actions[0]), actions[1..]);
    }
  }

  /** A removal of an id with two entries breaks the counter. */
  lemma RemoveDuplicateBreaksCount(p: Product)
    ensures var s := Initial([p, p]);
            !CountConsistent(RemoveProduct(s, p.id))
  {
    var s := Initial([p, p]);
    assert s.products[1..] == [p];
    assert [p][1..] == [];
    assert Occurrences([p], p.id) == 1;
    assert Occurrences(s.products, p.id) == 2;
    ActionKeepsConsistency(s, Remove(p.id));
  }
}
